=== FILE: README.md ===
# fbparser thread reconstruction, in Dafny

This project models the core of `fbparser`, the converter for Facebook's
`messages.htm` message archive. It covers the part that turns the archive's
thread elements into conversations:

- **Messages.** A thread's node stream is folded into messages. A message
  header sets the sender and timestamp. A paragraph sets the body. A message
  is emitted once all three are known. The list is reversed at the end,
  because the archive is newest first.
- **Owner identity.** The owner is set up from a UID, a display name and
  aliases. The aliases and the UID are registered in the replacement table
  under the display name; the name itself is not. As written, the key is
  the name fixed before the UID joins, possibly `None`. The table is inverted into an archive-name → preferred-name
  map, where later entries win.
- **Replacements file.** The `old=new` lines are flipped into the
  preferred-name → archive-names table.
- **Fragment rewrite.** Each fragment's title is split at `", "`. Names are
  replaced, the owner's own names are dropped, duplicates are removed and
  the title is rebuilt with `","`. Every sender is replaced too.
- **Merging.** Fragments with the same title become one thread. Their
  messages are concatenated, fragment by fragment, ordered by each fragment's
  first message. Python's sort is stable, so ties keep archive order. The
  threads are then sorted by title.
- **Participants.** A thread's lazily cached participant list is modelled.
- **Sanitising.** The control-character stripping used when the archive is
  sanitised is modelled.

Modules, one file each:

| module | what it holds |
|---|---|
| `Wrappers` | `Option` and `Result` |
| `Seqs` | reversal, duplicate-free lists, enumerations (what `list(set(l))` may return) |
| `Text` | `str.split`, `str.join` and `in` for strings; string order |
| `Sanitize` | control-character stripping |
| `Messages` | the message fold |
| `Threads` | the thread record, building one from its element, participants |
| `Registry` | the `defaultdict(list)` tables: append, inversion, the replacements flip |
| `Owner` | alias set-up |
| `Rewrite` | rewriting one fragment |
| `Sorting` | a stable sort |
| `Merge` | merging and ordering |
| `Archive` | the whole `threads` pipeline |

The pipeline (`Archive.Run` and the members it is built from) uses the
corrected forms of the two source defects listed under "## Findings". The
as-written forms are modelled beside them, with what holds of them; rows
below that describe a corrected member say so.

Python's `set` iteration order is not fixed by the language. It is a
parameter `pick` that must return a duplicate-free enumeration of its input
(`Threads.ValidPick`). Every property holds for every such `pick`.
`list.sort` and `sorted` are stable sorts. They are modelled by an insertion
sort, and `Sorting.StableSortsAgree` shows that any two stable sorts of a
list coincide.

## Model

| member | source | states |
|---|---|---|
| Sanitize.StripControl | fbparser/fbparser.py:118-125 | no character of the result is a control character, and the result is no longer than the input |
| Sanitize.StripContents | fbparser/fbparser.py:118-125 | every non-control character keeps its number of occurrences, and every control character is gone |
| Sanitize.StripConcat | fbparser/fbparser.py:109-112 | stripping distributes over concatenation, so stripping line by line equals stripping the whole file |
| Sanitize.StripClean | fbparser/fbparser.py:118-125 | text without control characters is returned unchanged |
| Sanitize.StripIdempotent | fbparser/fbparser.py:118-125 | stripping twice is stripping once |
| Messages.After | fbparser/fbparser.py:446-458 | a complete message is appended and replaced by a fresh one at once, so the message carried from one node to the next is never complete |
| Messages.EmitAppend | fbparser/fbparser.py:446-458 | folding two runs of nodes gives the first run's messages followed by those the second run yields from the message the first one left unfinished |
| Messages.BuildMessages | fbparser/fbparser.py:446-462 | the setter's loop over the nodes yields the reversed fold of the nodes, i.e. the messages oldest first |
| Messages.MessageCountBounded | fbparser/fbparser.py:446-462 | a thread has no more messages than paragraphs, and no more than headers naming a sender |
| Messages.EmitBounded | fbparser/fbparser.py:446-462 | the same bounds for a fold started from any draft, counting the draft's own fields |
| Messages.MessagesSourced | fbparser/fbparser.py:511-535 | each message's sender comes from a header's user span, its timestamp from a header's meta span, and its body from a paragraph of the same thread |
| Messages.ParseRenderRoundTrip | fbparser/fbparser.py:141-154 | a message list written in the documented archive layout, newest first, is read back as exactly that list in chronological order |
| Messages.AttachmentOnlyMessage | fbparser/fbparser.py:528-535 | a paragraph without text still completes a message, whose body is the empty string |
| Threads.FromRaw | fbparser/fbparser.py:319-330 | a thread built from an element takes the element's text as title, has no cached participants, and holds the messages the setter's loop builds from the element's nodes (`Messages.BuildMessages`): at most one per paragraph, every one read from its own nodes |
| Threads.Participants | fbparser/fbparser.py:420-435 | a cached list is returned as is; otherwise the list is cached, and it enumerates the distinct senders, or, for a thread without messages, is exactly the title split at `", "` (non-empty, joining back to the title) |
| Threads.ParticipantsMemoised | fbparser/fbparser.py:420-439 | asking again returns the same list and leaves the thread as it is |
| Text.JoinSplit | fbparser/fbparser.py:231-232 | joining the pieces of a split with the same separator gives back the text |
| Text.SplitJoin | fbparser/fbparser.py:231-232 | splitting at `", "` a title joined from names without `", "` gives back the names |
| Text.SplitJoinChar | fbparser/fbparser.py:250-251 | splitting at a one-character separator text joined with it from names without that character gives back the names |
| Text.SplitWithoutSeparator | fbparser/fbparser.py:231-234 | text without the separator splits into itself alone |
| Text.BelowTotal | fbparser/fbparser.py:172 | any two titles are comparable under Python's string order |
| Text.BelowTransitive | fbparser/fbparser.py:172 | Python's string order is transitive |
| Text.BelowAntisymmetric | fbparser/fbparser.py:172 | titles each at or below the other are equal |
| Registry.Lookup | fbparser/fbparser.py:45-48 | a key has a list in the table exactly when it is one of the table's keys |
| Registry.RegisterLookup | fbparser/fbparser.py:87-88 | `d[key].append(v)` appends `v` to `key`'s list (an absent key counts as an empty list) and leaves every other key's list unchanged |
| Registry.RegisterShape | fbparser/fbparser.py:87-88 | appending keeps every existing key in place, and a new key is added at the end with the one-element list |
| Registry.RegisterDistinct | fbparser/fbparser.py:87-88 | appending never creates a second entry for a key |
| Registry.RegisterAllLookup | fbparser/fbparser.py:87-88 | registering a non-empty list of aliases appends all of them, in order, to the key's list |
| Registry.RegisterAllOthers | fbparser/fbparser.py:87-88 | registering aliases under one key leaves every other key's list unchanged and keeps keys distinct |
| Registry.RegisterAllFresh | fbparser/fbparser.py:87-88 | registering a non-empty list under a key not yet present adds one entry at the end holding that list |
| Registry.InvertLastWins | fbparser/fbparser.py:224-227 | an archive name is replaced exactly when some entry lists it, and it is replaced by the key of the last entry listing it |
| Registry.FlipContents | fbparser/fbparser.py:585-590 | in the flipped table, an archive name is listed under a preferred name exactly when the file maps it to that name, and keys are distinct |
| Registry.FlipKey | fbparser/fbparser.py:585-590 | every preferred name of the file becomes a key of the flipped table |
| Registry.FlipInvert | fbparser/fbparser.py:585-590 | flipping the file's mapping and then inverting it (224-227) gives back the file's mapping, when each old name occurs once |
| Owner.BuildAliases | fbparser/fbparser.py:68-88 | corrected set-up: the given aliases come first; the UID (with `@facebook.com` added when all digits) is appended unless already present; the name defaults to the first alias; every alias is appended to the name's list and no other list changes |
| Owner.OwnerAliasesResolve | fbparser/fbparser.py:68-88 | corrected set-up: when the owner's name was not already a key, every alias of the owner is replaced by the owner's name |
| Owner.UidOnlyOwnerRegisteredUnderUid | fbparser/fbparser.py:62-63 | corrected set-up: with only a numeric UID given, the owner is named by the formatted UID and that UID is replaced by the owner's name, which is the UID itself (as written it is replaced by `None`) |
| Owner.OwnerAliasesResolveAsWritten | fbparser/fbparser.py:62-88 | as written: the owner's aliases are replaced by the owner's name when a name or an alias was given, and by `None` when only the UID was |
| Owner.BuildAliasesAsWritten | fbparser/fbparser.py:62-88 | as written: the given aliases come first; the UID (with `@facebook.com` added when all digits) is appended exactly when it is not among them, and a missing UID is appended as `None`; every alias is appended to the list of the name fixed before the UID joins (the given name, else the first given alias, else `None`) and no other list changes; only then does the name default to the first alias |
| Owner.AsWrittenAgreesWithUid | fbparser/fbparser.py:62-88 | when a UID is given, the set-up as written and the corrected one produce the same display name and the same aliases |
| Owner.UidOnlyOwnerRegisteredUnderNull | fbparser/fbparser.py:62-63 | as written, with only a numeric UID given, the owner is named by the formatted UID but that UID is replaced by `None` |
| Rewrite.TitleNames | fbparser/fbparser.py:231-234 | a title yields at least one name, and the names joined with `", "` give back the title |
| Rewrite.TitleNamesIsSplit | fbparser/fbparser.py:231-234 | the `in` test is redundant: the names are always the split of the title |
| Rewrite.DropOwnersSpec | fbparser/fbparser.py:238-244 | intended loop: deleting the owner's names while more than one name is left removes all of them, unless all names are the owner's, when the last one stays |
| Rewrite.RewriteNames | fbparser/fbparser.py:238-244 | intended loop: the result is the replaced names that are not the owner's, or, when all are the owner's, the last replaced name |
| Rewrite.RewriteFromAsWritten | fbparser/fbparser.py:238-244 | the loop as written never empties the list and never lengthens it |
| Rewrite.RewriteNamesAsWritten | fbparser/fbparser.py:238-244 | the same, for the whole title |
| Rewrite.RewriteTitleNames | fbparser/fbparser.py:238-244 | the index loop that deletes from the list it walks computes the as-written title names |
| Rewrite.SkipAfterDelete | fbparser/fbparser.py:238-244 | after the owner's name is deleted, the next name is not replaced; the intended loop replaces it |
| Rewrite.OwnerKeptAfterOwner | fbparser/fbparser.py:238-244 | after the owner's name is deleted, a following alias of the owner's stays in the title; the intended loop drops it |
| Rewrite.AsWrittenAgreesWithoutOwner | fbparser/fbparser.py:238-244 | when no replaced title name is the owner's, the loop as written and the intended one both just replace every name |
| Rewrite.RebuildTitle | fbparser/fbparser.py:248-253 | a title is produced exactly when a name is left (otherwise the "ran out of names" error); it is the names joined with `","`, a single name being its own join, and it splits at `","` back into the names when they hold no comma |
| Rewrite.RewrittenParticipants | fbparser/fbparser.py:255-258 | after the senders are replaced, the thread's participants (420-435) are exactly the replaced names of its old senders |
| Archive.SendersFollowTable | fbparser/fbparser.py:224-227 | a sender listed in no entry of the replacement table keeps their name; a listed one is written as the key of the last entry listing them |
| Rewrite.Resolve | fbparser/fbparser.py:229-258 | corrected loop: rewriting a fragment never runs out of names; its messages keep stamps and bodies with replaced senders; its title is the rewritten names, in the set's order, joined with `","`, and when none holds a comma it lists every rewritten name once |
| Rewrite.ResolveAsWritten | fbparser/fbparser.py:229-258 | as written: rewriting a fragment never runs out of names; senders are replaced; the title is the names the loop leaves, in the set's order, joined with `","`, and when none holds a comma it lists each of them once |
| Rewrite.PairTitleAsWritten | fbparser/fbparser.py:229-251 | as written: a two-person title naming the owner becomes the other name alone in either order, but that name is replaced only when the owner comes second |
| Rewrite.OwnerLeavesTitle | fbparser/fbparser.py:236-251 | corrected loop: when anyone besides the owner is named, the new title names exactly the replaced names that are not the owner's |
| Rewrite.OwnerLeavesPairTitle | fbparser/fbparser.py:229-251 | corrected loop: a title of the owner and one other person becomes the other person's replaced name alone, in either order |
| Sorting.SortBySorted | fbparser/fbparser.py:204 | the sort's result is in order |
| Sorting.SortByPermutes | fbparser/fbparser.py:204 | the sort's result is a permutation of its input |
| Sorting.SortByStable | fbparser/fbparser.py:204 | elements with equal keys keep their relative order |
| Sorting.StableSortsAgree | fbparser/fbparser.py:172 | two sorted lists with the same order among equal keys are the same list, so the model's sort gives what Python's does |
| Merge.OrdersArePreorders | fbparser/fbparser.py:172-204 | both sort keys, the first message's time and the title, are total preorders |
| Merge.MergeAll | fbparser/fbparser.py:190-207 | merging gives one thread per distinct fragment title, in the order `Seqs.Dedup` lists them, with no cached participants |
| Seqs.DedupFirstOrder | fbparser/fbparser.py:190-192 | the distinct titles are listed in order of first appearance, as the keys of a dict filled in archive order |
| Merge.MergeThreads | fbparser/fbparser.py:175-207 | merging fails exactly when some fragment has no message (its first message is read when sorting); otherwise titles are distinct and cover every fragment title |
| Merge.MergeKeepsMessages | fbparser/fbparser.py:201-205 | the merged threads hold exactly the fragments' messages, none lost or duplicated |
| Merge.MergedThreadOrder | fbparser/fbparser.py:201-205 | each merged thread is its fragments' messages, fragment after fragment, ordered by first message, with same-time fragments in archive order |
| Merge.TwoFragmentsMerge | fbparser/fbparser.py:201-205 | two same-title fragments, the later-starting one first in the archive, merge into one thread holding the earlier fragment's messages first |
| Merge.SortedTitlesAscend | fbparser/fbparser.py:172 | after the final sort, titles strictly ascend |
| Archive.Run | fbparser/fbparser.py:158-173 | corrected set-up and loop: the thread list is produced exactly when every thread element yields a message; its titles strictly ascend, and it holds as many messages as the elements yield |
| Archive.ExampleOwnerTable | fbparser/fbparser.py:45-88 | for UID `12345` and name `Me`, `12345@facebook.com` is replaced by `Me`, other names are untouched, and the owner's names are the UID and `Me` |
| Archive.OwnerUidExampleTitle | fbparser/fbparser.py:229-251 | the fragment titled `Jane Doe, 12345@facebook.com` of that owner is titled `Jane Doe` |
| Archive.OwnerUidExampleSenders | fbparser/fbparser.py:255-258 | that owner's messages are sent by `Me` after rewriting: the UID leaves the title but not the messages |

## Left out

- Parsing the XML file is left out. `iterparse`, element attributes and the nesting of `div`s are abstracted as a node stream per thread element. Each node is a message `div` (its user span, if any, and its meta span, if any), a `p` paragraph, or anything else.
- Messages.Step: a header is summarised by the last user span and last meta span inside it; several header `div`s in one message `div` are not modelled separately.
- Messages.Step: a meta span without text is not modelled. `dateutil` raises on it, and date parsing is a parameter here, so a `Stamp` carries the original text and an integer instant.
- Threads.FromRaw: a thread element with no leading text has a `None` title, which the source's later `in` test would reject. Titles are always strings here.
- Sanitize.StripControl: the Unicode general-category table is a parameter `isControl`. File reading, writing, the backup copy and the renames are I/O and are not modelled.
- Registry.FlipContents: `configparser` reading the INI file is not modelled. Key lower-casing, duplicate-key errors and interpolation are not modelled either. The model starts from the list of `old=new` pairs.
- Owner.IsDigits: only ASCII digits count. Python's `isdigit` also accepts other Unicode digits.
- Writing CSV, text and JSON files, `__str__`, `json`, `__dict__`, `export_*`, `write` and the command-line front end are output and I/O, and are left out. The staticmethods `_metadata` and `_text` are not called by the pipeline and are left out too.
- Merge.FirstTime: datetime comparison is integer comparison. Comparing time-zone-aware with naive datetimes raises in Python, and that is not modelled.
- Archive.Run: uses the corrected alias set-up and the corrected title-name loop (see "## Findings"). As written, a run with only a UID replaces the owner's UID by `None`. A title naming the UID with someone else then holds `None` among two or more names, and `','.join` raises `TypeError` at line 251. A title naming the UID alone becomes `None` at line 249, and the final sort at line 172 raises `TypeError` when comparing it with any other thread's title. Also, a name after a deleted owner name is neither replaced nor dropped. Neither failure is part of `Run`'s result.
- Rewrite.Resolve: uses the corrected title-name loop; the loop as written is `Rewrite.ResolveAsWritten`, which keeps a name that follows a deleted owner name in its archive form (`Me, John H Smith` becomes `John H Smith`, not `John Smith`).
- Rewrite.OwnerLeavesTitle: holds of the corrected loop only; as written an owner alias right after the owner's deleted name stays in the title (`Rewrite.OwnerKeptAfterOwner`).
- Rewrite.OwnerLeavesPairTitle: holds of the corrected loop only; as written the other name is replaced only when the owner comes second (`Rewrite.PairTitleAsWritten`).
- Owner.BuildAliases: the corrected set-up, which defaults the name before registering; the set-up as written is `Owner.BuildAliasesAsWritten`, which registers under the name fixed before the UID joins, possibly `None`.
- Owner.UidOnlyOwnerRegisteredUnderUid: holds of the corrected set-up only; as written the UID is replaced by `None` (`Owner.UidOnlyOwnerRegisteredUnderNull`).
- Rewrite.DropOwnersSpec: describes the intended loop only; as written the name after a deleted owner name is skipped (`Rewrite.RewriteNamesAsWritten`, `Rewrite.SkipAfterDelete`, `Rewrite.OwnerKeptAfterOwner`).
- Owner.OwnerAliasesResolve: holds of the corrected set-up only; as written, with only a UID given, the UID is replaced by `None` (`Owner.OwnerAliasesResolveAsWritten`, `Owner.UidOnlyOwnerRegisteredUnderNull`).
- Archive.Run: the caching of the thread list (`reparse`, the `_threads` check) is state, not modelled. The run's result equals one fresh parse.
- Threads.ValidPick: set iteration order is a parameter that may depend on the list it is given. So the model does not promise that fragments whose participants come out in different orders merge.

## Findings

| source | as written | input that shows it | evidently intended | confidence | as-written member | corrected member |
|---|---|---|---|---|---|---|
| fbparser/fbparser.py:238-244 | the title-name loop deletes from the list it is iterating over, so the name that slides into the deleted slot is skipped: it is neither replaced nor checked against the owner's names | owner `Me`, replacements `{"John Smith": ["John H Smith"]}`, fragment title `Me, John H Smith`: the title becomes `John H Smith`, not `John Smith`. Likewise owner `Me` with alias `Old Me` and title `Me, Old Me, Alice` keeps `Old Me` in the title | every name is replaced and every owner name is dropped while another name remains | high (not executed) | Rewrite.RewriteNamesAsWritten, Rewrite.RewriteTitleNames, Rewrite.SkipAfterDelete, Rewrite.OwnerKeptAfterOwner, Rewrite.PairTitleAsWritten | Rewrite.RewriteNames, Rewrite.DropOwnersSpec |
| fbparser/fbparser.py:62-63 | `aliases()` registers the aliases under `my_name` (lines 87-88). That happens before `__init__` defaults `my_name` to the first alias, and before the UID is in the alias list when no alias was given (lines 75-84) | `--uid 12345` without `--name`: the UID `12345@facebook.com` is registered under `None`, so the owner's UID in titles and senders is replaced by `None`. A title `Alice, 12345@facebook.com` then keeps `None`, and `','.join` raises `TypeError` | the display name defaults to the first alias, UID included, before registration, so the UID is replaced by the owner's own name and leaves titles | high (not executed) | Owner.BuildAliasesAsWritten, Owner.OwnerAliasesResolveAsWritten, Owner.UidOnlyOwnerRegisteredUnderNull | Owner.BuildAliases, Owner.UidOnlyOwnerRegisteredUnderUid |

The rest of the model (`Archive.Run`) uses the corrected `Owner.BuildAliases`
and `Rewrite.RewriteNames`. The corrected `Owner.BuildAliases` also does not
append an absent UID as an alias. In the source, that `None` alias maps
`None` to the owner's name (or to `None`), and no string title or sender
can equal `None`.

=== FILE: archive.dfy ===
/** The whole pipeline behind the archive's thread list: set up the
    owner's aliases, invert the replacement table, build a thread from every
    thread element, rewrite each, merge fragments by title and sort by
    title. */
module Archive {
  import opened Wrappers
  import opened Seqs
  import opened Text
  import opened Messages
  import opened Threads
  import opened Registry
  import opened Owner
  import opened Rewrite
  import opened Merge
  import opened Sorting

  /** The constructor arguments that shape the thread list. A missing
      replacement table is the empty one. */
  datatype Settings = Settings(uid: Option<string>, name: Option<string>, aliases: seq<string>,
                               replacements: seq<Entry<string>>)

  /** One thread per thread element, in document order. */
  function Fragments(raw: seq<RawThread>): (r: seq<Thread>)
    ensures |r| == |raw|
    ensures forall i :: 0 <= i < |raw| ==> r[i] == FromRaw(raw[i])
  {
    seq(|raw|, i requires 0 <= i < |raw| => FromRaw(raw[i]))
  }

  /** Every fragment rewritten (rewriting one never fails). */
  function ResolveAll(ts: seq<Thread>, inv: map<string, string>, mine: seq<string>,
                      pick: seq<string> -> seq<string>): (r: seq<Thread>)
    requires ValidPick(pick)
    ensures |r| == |ts|
    ensures forall i :: 0 <= i < |ts| ==> r[i] == Resolve(ts[i], inv, mine, pick).value
  {
    seq(|ts|, i requires 0 <= i < |ts| => Resolve(ts[i], inv, mine, pick).value)
  }

  /** The names the replacement step writes for archive names. */
  function Inverse(s: Settings): map<string, string> {
    Invert(BuildAliases(s.uid, s.name, s.aliases, s.replacements).table)
  }

  /** The owner's names, dropped from titles. */
  function Mine(s: Settings): seq<string> {
    OwnerNames(BuildAliases(s.uid, s.name, s.aliases, s.replacements))
  }

  /** The `threads` property from a parsed archive, with the corrected
      alias set-up and title-name loop. It fails exactly when some thread
      element yields no message; otherwise titles ascend strictly and the
      threads hold as many messages as the elements yield. */
  function Run(raw: seq<RawThread>, s: Settings, pick: seq<string> -> seq<string>): (r: Result<seq<Thread>, Error>)
    requires ValidPick(pick)
    ensures r.Success? <==> forall i :: 0 <= i < |raw| ==> |ParseMessages(raw[i].nodes)| > 0
    ensures r.Failure? ==> r.error == EmptyFragment
    ensures r.Success? ==> Ascending(r.value)
    ensures r.Success? ==> |Flatten(r.value)| == |Flatten(Fragments(raw))|
  {
    var frags := ResolveAll(Fragments(raw), Inverse(s), Mine(s), pick);
    FragmentsEmpty(raw, Inverse(s), Mine(s), pick);
    ResolveKeepsCounts(Fragments(raw), Inverse(s), Mine(s), pick);
    var merged := MergeThreads(frags);
    if merged.Failure? then Failure(merged.error)
    else
      RunProperties(frags, merged.value);
      Success(SortByTitle(merged.value))
  }

  /** A sender listed in no entry of the replacement table keeps their
      name; one listed is written as the key of the last entry listing
      them. */
  lemma SendersFollowTable(ms: seq<Message>, table: seq<Entry<string>>)
    ensures forall i :: 0 <= i < |ms| && (forall j :: 0 <= j < |table| ==> ms[i].sender !in table[j].variants) ==>
      RewriteSenders(ms, Invert(table))[i].sender == ms[i].sender
    ensures forall i, j ::
      (0 <= i < |ms| && 0 <= j < |table| && ms[i].sender in table[j].variants &&
       (forall k :: j < k < |table| ==> ms[i].sender !in table[k].variants)) ==>
      RewriteSenders(ms, Invert(table))[i].sender == table[j].key
  {
    var r := RewriteSenders(ms, Invert(table));
    forall i | 0 <= i < |ms|
      ensures r[i].sender == Replace(ms[i].sender, Invert(table))
    {
      assert Senders(r)[i] == ReplaceAll(Senders(ms), Invert(table))[i];
    }
    forall i | 0 <= i < |ms|
      ensures (forall j :: 0 <= j < |table| ==> ms[i].sender !in table[j].variants) ==> r[i].sender == ms[i].sender
      ensures forall j ::
        (0 <= j < |table| && ms[i].sender in table[j].variants &&
         (forall k :: j < k < |table| ==> ms[i].sender !in table[k].variants)) ==> r[i].sender == table[j].key
    {
      InvertLastWins(table, ms[i].sender);
    }
  }

  /** Titles strictly ascend. */
  predicate Ascending(ts: seq<Thread>) {
    forall i, j :: 0 <= i < j < |ts| ==> Below(ts[i].title, ts[j].title) && ts[i].title != ts[j].title
  }

  /** Rewriting fragments keeps how many messages they hold. */
  lemma {:induction false} ResolveKeepsCounts(ts: seq<Thread>, inv: map<string, string>, mine: seq<string>,
                                              pick: seq<string> -> seq<string>)
    requires ValidPick(pick)
    ensures |Flatten(ResolveAll(ts, inv, mine, pick))| == |Flatten(ts)|
  {
    if |ts| > 0 {
      ResolveKeepsCounts(ts[1..], inv, mine, pick);
      assert ResolveAll(ts, inv, mine, pick)[1..] == ResolveAll(ts[1..], inv, mine, pick);
    }
  }

  /** A rewritten fragment lacks messages exactly when its thread element
      yields none. */
  lemma FragmentsEmpty(raw: seq<RawThread>, inv: map<string, string>, mine: seq<string>,
                       pick: seq<string> -> seq<string>)
    requires ValidPick(pick)
    ensures HasEmpty(ResolveAll(Fragments(raw), inv, mine, pick)) <==>
      !forall i :: 0 <= i < |raw| ==> |ParseMessages(raw[i].nodes)| > 0
  {
    var frags := ResolveAll(Fragments(raw), inv, mine, pick);
    forall i | 0 <= i < |raw|
      ensures |frags[i].messages| == |ParseMessages(raw[i].nodes)|
    {
      assert |frags[i].messages| == |Fragments(raw)[i].messages|;
    }
  }

  /** What the last two steps keep. */
  lemma RunProperties(frags: seq<Thread>, merged: seq<Thread>)
    requires MergeThreads(frags) == Success(merged)
    ensures Ascending(SortByTitle(merged))
    ensures |Flatten(SortByTitle(merged))| == |Flatten(frags)|
  {
    SortedTitlesAscend(merged);
    MergeKeepsMessages(frags);
    OrdersArePreorders();
    SortBag(merged, TitleNoLater);
    assert |multiset(Flatten(SortByTitle(merged)))| == |multiset(Flatten(merged))|;
  }

  /** The owner of the worked example: UID `12345`, display name `Me`. */
  const ExampleOwner := Settings(Some("12345"), Some("Me"), [], [])

  /** The example owner's UID is written `Me`, other names stay, and the
      owner's names are the UID and `Me`. */
  lemma ExampleOwnerTable()
    ensures "12345@facebook.com" in Inverse(ExampleOwner) && Inverse(ExampleOwner)["12345@facebook.com"] == "Me"
    ensures "Jane Doe" !in Inverse(ExampleOwner)
    ensures Mine(ExampleOwner) == ["12345@facebook.com", "Me"]
  {
    var s := ExampleOwner;
    ExampleOwnerBuilt();
    var o := BuildAliases(s.uid, s.name, s.aliases, s.replacements);
    OwnerAliasesResolve(s.uid, s.name, s.aliases, s.replacements);
    InvertLastWins(o.table, "Jane Doe");
  }

  /** The example owner's set-up: named `Me`, with the UID in archive form
      as the one alias, registered under `Me` in an otherwise empty table. */
  lemma ExampleOwnerBuilt()
    ensures var o := BuildAliases(Some("12345"), Some("Me"), [], []);
      && o.name == Some("Me")
      && o.aliases == ["12345@facebook.com"]
      && o.table == [Entry("Me", ["12345@facebook.com"])]
  {
    assert IsDigits("12345");
    assert FormatUid("12345") == "12345" + UidDomain == "12345@facebook.com";
    var o := BuildAliases(Some("12345"), Some("Me"), [], []);
    assert o.aliases == ["12345@facebook.com"];
    RegisterAllFresh([], "Me", o.aliases);
  }

  /** Jane Doe keeps her name and is not the owner; the UID becomes `Me`,
      one of the owner's names. */
  lemma ExampleReplacements()
    ensures Replace("Jane Doe", Inverse(ExampleOwner)) == "Jane Doe"
    ensures Replace("12345@facebook.com", Inverse(ExampleOwner)) == "Me"
    ensures "Jane Doe" !in Mine(ExampleOwner) && "Me" in Mine(ExampleOwner)
  {
    ExampleOwnerTable();
  }

  /** The example title is the two names, neither holding a comma, joined
      by the separator. */
  lemma ExampleTitleParts()
    ensures ',' !in "Jane Doe" && ',' !in "12345@facebook.com"
    ensures "Jane Doe, 12345@facebook.com" == "Jane Doe" + TitleSeparator + "12345@facebook.com"
  {
    assert TitleSeparator == ", ";
  }

  /** The pair-title rule for names without a comma. */
  lemma CommaFreePairTitle(a: string, b: string, t: Thread, inv: map<string, string>,
                           mine: seq<string>, pick: seq<string> -> seq<string>)
    requires ValidPick(pick)
    requires ',' !in a && ',' !in b
    requires t.title == a + TitleSeparator + b
    requires Replace(a, inv) !in mine && Replace(b, inv) in mine
    ensures Resolve(t, inv, mine, pick).value.title == Replace(a, inv)
  {
    NoCommaNoSeparator(a);
    NoCommaNoSeparator(b);
    OwnerLeavesPairTitle(a, b, t, inv, mine, pick);
  }

  /** A fragment of the example owner with Jane Doe is titled `Jane Doe`. */
  lemma OwnerUidExampleTitle(t: Thread, pick: seq<string> -> seq<string>)
    requires ValidPick(pick)
    requires t.title == "Jane Doe, 12345@facebook.com"
    ensures Resolve(t, Inverse(ExampleOwner), Mine(ExampleOwner), pick).value.title == "Jane Doe"
  {
    ExampleReplacements();
    ExampleTitleParts();
    CommaFreePairTitle("Jane Doe", "12345@facebook.com", t, Inverse(ExampleOwner), Mine(ExampleOwner), pick);
  }

  /** In any fragment, the example owner's messages end up sent by `Me`:
      the UID leaves the title but not the messages. */
  lemma OwnerUidExampleSenders(t: Thread, pick: seq<string> -> seq<string>)
    requires ValidPick(pick)
    ensures var r := Resolve(t, Inverse(ExampleOwner), Mine(ExampleOwner), pick).value;
      forall i :: 0 <= i < |t.messages| && t.messages[i].sender == "12345@facebook.com" ==>
        r.messages[i].sender == "Me"
  {
    var inv := Inverse(ExampleOwner);
    var r := Resolve(t, inv, Mine(ExampleOwner), pick).value;
    ExampleOwnerTable();
    forall i | 0 <= i < |t.messages| && t.messages[i].sender == "12345@facebook.com"
      ensures r.messages[i].sender == "Me"
    {
      assert Senders(r.messages)[i] == ReplaceAll(Senders(t.messages), inv)[i];
    }
  }

  /** Text without a comma cannot hold the title separator. */
  lemma {:induction false} NoCommaNoSeparator(s: string)
    requires ',' !in s
    ensures !Contains(s, TitleSeparator)
    decreases |s|
  {
    if |s| > 0 {
      assert s[0] != ',';
      assert s[1..] <= s[1..];
      NoCommaNoSeparator(s[1..]);
      assert forall c :: c in s[1..] ==> c in s;
    }
  }
}

=== FILE: merge.dfy ===
/** Merging fragments into conversations: fragments with the same title
    become one thread whose messages are the fragments' messages, fragment
    after fragment in order of each fragment's first message; the threads
    are finally ordered by title. */
module Merge {
  import opened Wrappers
  import opened Seqs
  import opened Text
  import opened Messages
  import opened Threads
  import opened Sorting

  /** The time of a fragment's first message, the key fragments are sorted
      by; only asked of fragments that have a message. */
  function FirstTime(t: Thread): int {
    if |t.messages| > 0 then t.messages[0].stamp.time else 0
  }

  /** Fragment order: the first message is no later. */
  predicate StartsNoLater(a: Thread, b: Thread) {
    FirstTime(a) <= FirstTime(b)
  }

  /** Thread order: the title is no greater. */
  predicate TitleNoLater(a: Thread, b: Thread) {
    Below(a.title, b.title)
  }

  /** Both orders are total preorders, so the sort lemmas apply. */
  lemma OrdersArePreorders()
    ensures TotalPreorder(StartsNoLater)
    ensures TotalPreorder(TitleNoLater)
  {
    forall a: Thread, b: Thread
      ensures TitleNoLater(a, b) || TitleNoLater(b, a)
    {
      BelowTotal(a.title, b.title);
    }
    forall a: Thread, b: Thread, c: Thread | TitleNoLater(a, b) && TitleNoLater(b, c)
      ensures TitleNoLater(a, c)
    {
      BelowTransitive(a.title, b.title, c.title);
    }
  }

  /** The titles of a list of threads, in order. */
  function Titles(ts: seq<Thread>): (r: seq<string>)
    ensures |r| == |ts|
    ensures forall i :: 0 <= i < |ts| ==> r[i] == ts[i].title
  {
    seq(|ts|, i requires 0 <= i < |ts| => ts[i].title)
  }

  /** The fragments with a given title, in archive order. */
  function Group(frags: seq<Thread>, title: string): (r: seq<Thread>)
    ensures forall t :: t in r <==> t in frags && t.title == title
  {
    if |frags| == 0 then []
    else
      assert frags == [frags[0]] + frags[1..];
      (if frags[0].title == title then [frags[0]] else []) + Group(frags[1..], title)
  }

  /** All messages of a list of threads, thread after thread. */
  function Flatten(ts: seq<Thread>): seq<Message> {
    if |ts| == 0 then [] else ts[0].messages + Flatten(ts[1..])
  }

  /** One conversation from the fragments sharing its title. */
  function Combine(title: string, group: seq<Thread>): Thread {
    Thread(title, Flatten(SortBy(group, StartsNoLater)), Pending)
  }

  /** One conversation per title of `titles`. */
  function CombineAll(frags: seq<Thread>, titles: seq<string>): (r: seq<Thread>)
    ensures |r| == |titles|
    ensures forall k :: 0 <= k < |r| ==> r[k] == Combine(titles[k], Group(frags, titles[k]))
  {
    if |titles| == 0 then []
    else [Combine(titles[0], Group(frags, titles[0]))] + CombineAll(frags, titles[1..])
  }

  /** Merging, for fragments that all have a message: one thread per
      distinct title, in order of first appearance, none with a cached
      participant list. */
  function MergeAll(frags: seq<Thread>): (r: seq<Thread>)
    ensures Distinct(Titles(r)) && Enumerates(Titles(r), Titles(frags))
    ensures Titles(r) == Dedup(Titles(frags))
    ensures forall k :: 0 <= k < |r| ==> r[k].participants == Pending
  {
    var titles := Dedup(Titles(frags));
    var r := CombineAll(frags, titles);
    assert Titles(r) == titles;
    r
  }

  /** Whether some fragment has no message. */
  predicate HasEmpty(frags: seq<Thread>) {
    exists i :: 0 <= i < |frags| && |frags[i].messages| == 0
  }

  /** `_merge_threads`: sorting a group reads the first message of every
      fragment in it, so a fragment without messages makes the step fail. */
  function MergeThreads(frags: seq<Thread>): (r: Result<seq<Thread>, Error>)
    ensures r.Success? <==> !HasEmpty(frags)
    ensures r.Failure? ==> r.error == EmptyFragment
    ensures r.Success? ==> Distinct(Titles(r.value)) && Enumerates(Titles(r.value), Titles(frags))
  {
    if HasEmpty(frags) then Failure(EmptyFragment) else Success(MergeAll(frags))
  }

  /** The final order: `sorted` by title. */
  function SortByTitle(ts: seq<Thread>): (r: seq<Thread>)
    ensures |r| == |ts|
  {
    SortBy(ts, TitleNoLater)
  }

  // ---- Messages are neither lost nor duplicated ----

  lemma {:induction false} FlattenConcat(a: seq<Thread>, b: seq<Thread>)
    ensures Flatten(a + b) == Flatten(a) + Flatten(b)
    decreases |a|
  {
    if |a| > 0 {
      assert (a + b)[1..] == a[1..] + b;
      FlattenConcat(a[1..], b);
    } else {
      assert a + b == b;
    }
  }

  lemma {:induction false} InsertBag(x: Thread, s: seq<Thread>, le: (Thread, Thread) -> bool)
    ensures multiset(Flatten(Insert(x, s, le))) == multiset(x.messages) + multiset(Flatten(s))
  {
    if |s| > 0 && !le(x, s[0]) {
      InsertBag(x, s[1..], le);
      assert ([s[0]] + Insert(x, s[1..], le))[1..] == Insert(x, s[1..], le);
    } else if |s| > 0 {
      assert ([x] + s)[1..] == s;
    }
  }

  /** Sorting fragments keeps the messages they hold. */
  lemma {:induction false} SortBag(g: seq<Thread>, le: (Thread, Thread) -> bool)
    ensures multiset(Flatten(SortBy(g, le))) == multiset(Flatten(g))
  {
    if |g| > 0 {
      SortBag(g[1..], le);
      InsertBag(g[0], SortBy(g[1..], le), le);
    }
  }

  /** The messages of every group named in `titles`, together. */
  function BagOver(frags: seq<Thread>, titles: seq<string>): multiset<Message> {
    if |titles| == 0 then multiset{} else multiset(Flatten(Group(frags, titles[0]))) + BagOver(frags, titles[1..])
  }

  lemma {:induction false} CombineAllBag(frags: seq<Thread>, titles: seq<string>)
    ensures multiset(Flatten(CombineAll(frags, titles))) == BagOver(frags, titles)
  {
    if |titles| > 0 {
      var r := CombineAll(frags, titles);
      assert r[1..] == CombineAll(frags, titles[1..]);
      CombineAllBag(frags, titles[1..]);
      SortBag(Group(frags, titles[0]), StartsNoLater);
    }
  }

  /** The messages of `f` once for every time `titles` names its title. */
  function Mentions(f: Thread, titles: seq<string>): multiset<Message> {
    if |titles| == 0 then multiset{}
    else (if titles[0] == f.title then multiset(f.messages) else multiset{}) + Mentions(f, titles[1..])
  }

  lemma {:induction false} MentionsOnce(f: Thread, titles: seq<string>)
    requires Distinct(titles)
    ensures f.title in titles ==> Mentions(f, titles) == multiset(f.messages)
    ensures f.title !in titles ==> Mentions(f, titles) == multiset{}
  {
    if |titles| > 0 {
      MentionsOnce(f, titles[1..]);
      if titles[0] == f.title {
        assert f.title !in titles[1..];
      } else {
        assert titles == [titles[0]] + titles[1..];
      }
    }
  }

  lemma GroupCons(f: Thread, rest: seq<Thread>, title: string)
    ensures Group([f] + rest, title) == (if f.title == title then [f] else []) + Group(rest, title)
  {
    assert ([f] + rest)[1..] == rest;
  }

  lemma FlattenCons(f: Thread, rest: seq<Thread>)
    ensures Flatten([f] + rest) == f.messages + Flatten(rest)
  {
    assert ([f] + rest)[1..] == rest;
  }

  lemma {:induction false} BagOverCons(f: Thread, rest: seq<Thread>, titles: seq<string>)
    ensures BagOver([f] + rest, titles) == Mentions(f, titles) + BagOver(rest, titles)
  {
    if |titles| > 0 {
      BagOverCons(f, rest, titles[1..]);
      GroupCons(f, rest, titles[0]);
      var g := Group(rest, titles[0]);
      if f.title == titles[0] {
        FlattenCons(f, g);
      } else {
        assert Group([f] + rest, titles[0]) == g;
      }
    }
  }

  lemma {:induction false} BagOverEmpty(titles: seq<string>)
    ensures BagOver([], titles) == multiset{}
  {
    if |titles| > 0 {
      BagOverEmpty(titles[1..]);
    }
  }

  /** Gathering the groups of a duplicate-free list naming every title gives
      back every fragment's messages. */
  lemma {:induction false} GroupsPartition(frags: seq<Thread>, titles: seq<string>)
    requires Distinct(titles)
    requires forall i :: 0 <= i < |frags| ==> frags[i].title in titles
    ensures BagOver(frags, titles) == multiset(Flatten(frags))
  {
    if |frags| == 0 {
      BagOverEmpty(titles);
    } else {
      var f := frags[0];
      assert frags == [f] + frags[1..];
      BagOverCons(f, frags[1..], titles);
      MentionsOnce(f, titles);
      GroupsPartition(frags[1..], titles);
    }
  }

  /** Merging keeps exactly the fragments' messages: every message lands in
      the thread of its fragment's title, once. */
  lemma MergeKeepsMessages(frags: seq<Thread>)
    ensures multiset(Flatten(MergeAll(frags))) == multiset(Flatten(frags))
    ensures |Flatten(MergeAll(frags))| == |Flatten(frags)|
  {
    var titles := Dedup(Titles(frags));
    CombineAllBag(frags, titles);
    forall i | 0 <= i < |frags|
      ensures frags[i].title in titles
    {
      assert Titles(frags)[i] in titles;
    }
    GroupsPartition(frags, titles);
    assert |multiset(Flatten(MergeAll(frags)))| == |multiset(Flatten(frags))|;
  }

  /** Each merged thread holds its group's fragments whole, one after the
      other, ordered by first message; fragments starting at the same time
      keep their archive order. */
  lemma MergedThreadOrder(frags: seq<Thread>, t: Thread)
    ensures var order := SortBy(Group(frags, t.title), StartsNoLater);
      && (t in MergeAll(frags) ==> t.messages == Flatten(order))
      && SortedBy(order, StartsNoLater)
      && multiset(order) == multiset(Group(frags, t.title))
      && forall z :: Ties(order, z, StartsNoLater) == Ties(Group(frags, t.title), z, StartsNoLater)
  {
    var g := Group(frags, t.title);
    OrdersArePreorders();
    SortBySorted(g, StartsNoLater);
    SortByPermutes(g, StartsNoLater);
    forall z
      ensures Ties(SortBy(g, StartsNoLater), z, StartsNoLater) == Ties(g, z, StartsNoLater)
    {
      SortByStable(g, z, StartsNoLater);
    }
  }

  /** Two fragments with the same title, the later-starting one first in the
      archive: the merged thread holds the earlier-starting one's messages
      first. */
  lemma TwoFragmentsMerge(a: Thread, b: Thread)
    requires a.title == b.title
    requires |a.messages| > 0 && |b.messages| > 0
    requires FirstTime(b) < FirstTime(a)
    ensures MergeThreads([a, b]).Success?
    ensures MergeThreads([a, b]).value == [Thread(a.title, b.messages + a.messages, Pending)]
  {
    var frags := [a, b];
    assert Titles(frags) == [a.title, a.title];
    assert Dedup(Titles(frags)) == [a.title] by {
      assert Titles(frags)[..1] == [a.title];
      assert Dedup([a.title]) == [a.title] by {
        assert [a.title][..0] == [];
      }
    }
    assert Group(frags, a.title) == [a, b] by {
      assert frags[1..] == [b];
      assert Group([b], a.title) == [b] by {
        assert [b][1..] == [];
      }
    }
    assert Insert(a, [], StartsNoLater) == [a];
    assert SortBy([b], StartsNoLater) == [b] by {
      assert [b][1..] == [];
    }
    assert SortBy([a, b], StartsNoLater) == Insert(a, [b], StartsNoLater);
    assert Insert(a, [b], StartsNoLater) == [b, a];
    assert Flatten([b, a]) == b.messages + a.messages by {
      FlattenCons(a, []);
      FlattenCons(b, [a]);
      assert [b] + [a] == [b, a];
      assert a.messages + [] == a.messages;
    }
    assert !HasEmpty(frags);
  }

  /** After the final sort, titles ascend; since merged titles are
      distinct, they ascend strictly. */
  lemma SortedTitlesAscend(ts: seq<Thread>)
    requires Distinct(Titles(ts))
    ensures var r := SortByTitle(ts);
      && multiset(r) == multiset(ts)
      && forall i, j :: 0 <= i < j < |r| ==> Below(r[i].title, r[j].title) && r[i].title != r[j].title
  {
    var r := SortByTitle(ts);
    OrdersArePreorders();
    SortBySorted(ts, TitleNoLater);
    SortByPermutes(ts, TitleNoLater);
    SortedOrdered(r, TitleNoLater);
    forall i, j | 0 <= i < j < |r|
      ensures r[i].title != r[j].title
    {
      DistinctTitlesPermuted(ts, r, i, j);
    }
  }

  /** Two positions of a permutation of threads with distinct titles hold
      different titles. */
  lemma DistinctTitlesPermuted(ts: seq<Thread>, r: seq<Thread>, i: int, j: int)
    requires Distinct(Titles(ts))
    requires multiset(r) == multiset(ts)
    requires 0 <= i < j < |r|
    ensures r[i].title != r[j].title
  {
    CountAtMostOne(ts, r[i]);
    CountPair(r, i, j);
    assert r[i] != r[j];
    assert r[i] in multiset(ts) && r[j] in multiset(ts);
    var a :| 0 <= a < |ts| && ts[a] == r[i];
    var b :| 0 <= b < |ts| && ts[b] == r[j];
    assert Titles(ts)[a] != Titles(ts)[b];
  }

  /** A thread at two positions occurs at least twice. */
  lemma CountPair(r: seq<Thread>, i: int, j: int)
    requires 0 <= i < j < |r|
    ensures r[i] == r[j] ==> multiset(r)[r[i]] >= 2
  {
    assert r == r[..i] + [r[i]] + r[i + 1..j] + [r[j]] + r[j + 1..];
  }

  /** Threads with distinct titles occur at most once each. */
  lemma {:induction false} CountAtMostOne(ts: seq<Thread>, x: Thread)
    requires Distinct(Titles(ts))
    ensures multiset(ts)[x] <= 1
  {
    if |ts| > 0 {
      assert ts == [ts[0]] + ts[1..];
      assert Titles(ts[1..]) == Titles(ts)[1..];
      CountAtMostOne(ts[1..], x);
      if ts[0] == x {
        forall k | 0 <= k < |ts[1..]|
          ensures ts[1..][k] != x
        {
          assert Titles(ts)[0] != Titles(ts)[k + 1];
        }
        assert x !in ts[1..];
      }
    }
  }
}

=== FILE: messages.dfy ===
/** Message assembly: the `messages` setter of a thread folds the stream of
    archive nodes of one thread into messages. A message header fills in the
    sender and timestamp, a paragraph fills in the body, and a message is
    emitted as soon as all three are known, after which a fresh draft starts.
    The emitted list is reversed once at the end, because the archive lists
    messages newest first. */
module Messages {
  import opened Wrappers
  import opened Seqs

  /** A timestamp as the archive writes it, and the instant it parses to.
      Date parsing is not modelled: `time` is whatever the parser returned. */
  datatype Stamp = Stamp(original: string, time: int)

  /** A complete message. */
  datatype Message = Message(sender: string, stamp: Stamp, body: string)

  /** The `user` span of a message header: missing, or present with text
      that may be absent. A present span always overwrites the sender. */
  datatype UserSpan = NoUserSpan | UserSpan(text: Option<string>)

  /** One node of a thread's subtree, in document order. */
  datatype Node =
    | Header(user: UserSpan, meta: Option<Stamp>)  // a `div` of class `message`
    | Para(text: Option<string>)                   // a `p` element
    | Other                                        // any other element

  /** A message under construction; `None` is a field not yet seen. */
  datatype Draft = Draft(sender: Option<string>, stamp: Option<Stamp>, body: Option<string>)

  const Blank: Draft := Draft(None, None, None)

  /** All three fields are known. */
  predicate Complete(d: Draft) {
    d.sender.Some? && d.stamp.Some? && d.body.Some?
  }

  /** The effect of one node on the draft. A paragraph without text is an
      attachment-only message: its body is the empty string, not absent. */
  function Fill(d: Draft, n: Node): Draft {
    match n
    case Header(user, meta) =>
      var sender := if user.UserSpan? then user.text else d.sender;
      var stamp := if meta.Some? then meta else d.stamp;
      d.(sender := sender, stamp := stamp)
    case Para(text) => d.(body := Some(text.GetOr("")))
    case Other => d
  }

  /** Fill the draft with one node; emit it and start afresh if complete. */
  function Step(d: Draft, n: Node): (r: (Draft, Option<Message>))
    ensures r.1.Some? <==> Complete(Fill(d, n))
    ensures r.1.Some? ==> r.0 == Blank
    ensures r.1.Some? ==> Fill(d, n) == Draft(Some(r.1.value.sender), Some(r.1.value.stamp), Some(r.1.value.body))
    ensures r.1.None? ==> r.0 == Fill(d, n)
    ensures !Complete(r.0)
  {
    var f := Fill(d, n);
    if Complete(f) then (Blank, Some(Message(f.sender.value, f.stamp.value, f.body.value)))
    else (f, None)
  }

  /** The messages emitted while folding `nodes` from draft `d`, in emission
      (archive) order. */
  function Emit(d: Draft, nodes: seq<Node>): seq<Message>
    decreases |nodes|
  {
    if |nodes| == 0 then []
    else
      var (d', out) := Step(d, nodes[0]);
      (if out.Some? then [out.value] else []) + Emit(d', nodes[1..])
  }

  /** The draft left over after folding `nodes` from `d`. A complete draft
      is emitted at once, so the draft carried to the next node is never
      complete. */
  function After(d: Draft, nodes: seq<Node>): (r: Draft)
    ensures |nodes| > 0 || !Complete(d) ==> !Complete(r)
    decreases |nodes|
  {
    if |nodes| == 0 then d else After(Step(d, nodes[0]).0, nodes[1..])
  }

  /** Folding two runs of nodes one after the other: the second run starts
      from the draft the first one left, and the messages are those of the
      first run followed by those of the second. */
  lemma {:induction false} EmitAppend(d: Draft, a: seq<Node>, b: seq<Node>)
    ensures Emit(d, a + b) == Emit(d, a) + Emit(After(d, a), b)
    decreases |a|
  {
    if |a| == 0 {
      assert a + b == b;
    } else {
      var (d', out) := Step(d, a[0]);
      assert (a + b)[0] == a[0];
      assert (a + b)[1..] == a[1..] + b;
      EmitAppend(d', a[1..], b);
    }
  }

  /** The messages of one thread, oldest first. */
  function ParseMessages(nodes: seq<Node>): seq<Message> {
    Reverse(Emit(Blank, nodes))
  }

  /** The setter as a loop over the nodes. */
  method BuildMessages(nodes: seq<Node>) returns (messages: seq<Message>)
    ensures messages == ParseMessages(nodes)
  {
    var emitted: seq<Message> := [];
    var draft := Blank;
    var k := 0;
    while k < |nodes|
      invariant k <= |nodes|
      invariant emitted + Emit(draft, nodes[k..]) == Emit(Blank, nodes)
    {
      assert nodes[k..][1..] == nodes[k + 1..];
      draft := Fill(draft, nodes[k]);
      if Complete(draft) {
        emitted := emitted + [Message(draft.sender.value, draft.stamp.value, draft.body.value)];
        draft := Blank;
      }
      k := k + 1;
    }
    messages := Reverse(emitted);
  }

  /** Number of paragraph nodes. */
  function Paras(nodes: seq<Node>): nat {
    if |nodes| == 0 then 0 else (if nodes[0].Para? then 1 else 0) + Paras(nodes[1..])
  }

  /** Number of header nodes that name a sender. */
  function NamedHeaders(nodes: seq<Node>): nat {
    if |nodes| == 0 then 0
    else (if nodes[0].Header? && nodes[0].user.UserSpan? && nodes[0].user.text.Some? then 1 else 0) + NamedHeaders(nodes[1..])
  }

  /** Every message needs a paragraph and a named header of its own: there
      are never more messages than either. */
  lemma {:induction false} EmitBounded(d: Draft, nodes: seq<Node>)
    ensures |Emit(d, nodes)| <= Paras(nodes) + (if d.body.Some? then 1 else 0)
    ensures |Emit(d, nodes)| <= NamedHeaders(nodes) + (if d.sender.Some? then 1 else 0)
    decreases |nodes|
  {
    if |nodes| > 0 {
      var (d', out) := Step(d, nodes[0]);
      EmitBounded(d', nodes[1..]);
    }
  }

  /** A thread's message count is bounded by its paragraphs and by its
      named headers. */
  lemma MessageCountBounded(nodes: seq<Node>)
    ensures |ParseMessages(nodes)| <= Paras(nodes)
    ensures |ParseMessages(nodes)| <= NamedHeaders(nodes)
  {
    EmitBounded(Blank, nodes);
  }

  /** The node is a header whose user span names `sender`. */
  predicate NamesSender(n: Node, sender: string) {
    n.Header? && n.user == UserSpan(Some(sender))
  }

  /** The node is a header whose meta span carries `stamp`. */
  predicate GivesStamp(n: Node, stamp: Stamp) {
    n.Header? && n.meta == Some(stamp)
  }

  /** The node is a paragraph whose text (or the empty string) is `body`. */
  predicate GivesBody(n: Node, body: string) {
    n.Para? && n.text.GetOr("") == body
  }

  /** Each field of `m` is in the draft `d` or was read from one of `nodes`. */
  ghost predicate Sourced(m: Message, d: Draft, nodes: seq<Node>) {
    && (d.sender == Some(m.sender) || exists i :: 0 <= i < |nodes| && NamesSender(nodes[i], m.sender))
    && (d.stamp == Some(m.stamp) || exists i :: 0 <= i < |nodes| && GivesStamp(nodes[i], m.stamp))
    && (d.body == Some(m.body) || exists i :: 0 <= i < |nodes| && GivesBody(nodes[i], m.body))
  }

  /** A message sourced from the nodes after the first is sourced from all
      of them, when the first node led from `d` to `d'`. */
  lemma SourcedShift(m: Message, d: Draft, nodes: seq<Node>)
    requires |nodes| > 0
    requires Sourced(m, Fill(d, nodes[0]), nodes[1..])
    ensures Sourced(m, d, nodes)
  {
    var f := Fill(d, nodes[0]);
    if f.sender == Some(m.sender) {
      if d.sender != Some(m.sender) {
        assert NamesSender(nodes[0], m.sender);
      }
    } else {
      var i :| 0 <= i < |nodes| - 1 && NamesSender(nodes[1..][i], m.sender);
      assert nodes[i + 1] == nodes[1..][i];
    }
    if f.stamp == Some(m.stamp) {
      if d.stamp != Some(m.stamp) {
        assert GivesStamp(nodes[0], m.stamp);
      }
    } else {
      var i :| 0 <= i < |nodes| - 1 && GivesStamp(nodes[1..][i], m.stamp);
      assert nodes[i + 1] == nodes[1..][i];
    }
    if f.body == Some(m.body) {
      if d.body != Some(m.body) {
        assert GivesBody(nodes[0], m.body);
      }
    } else {
      var i :| 0 <= i < |nodes| - 1 && GivesBody(nodes[1..][i], m.body);
      assert nodes[i + 1] == nodes[1..][i];
    }
  }

  /** Every field of an emitted message was read from the nodes (or was
      already in the starting draft): senders from header user spans,
      timestamps from header meta spans, bodies from paragraphs. */
  lemma {:induction false} EmitSourced(d: Draft, nodes: seq<Node>)
    ensures forall m :: m in Emit(d, nodes) ==> Sourced(m, d, nodes)
    decreases |nodes|
  {
    if |nodes| > 0 {
      var f := Fill(d, nodes[0]);
      var (d', out) := Step(d, nodes[0]);
      EmitSourced(d', nodes[1..]);
      forall m | m in Emit(d, nodes)
        ensures Sourced(m, d, nodes)
      {
        if out.Some? && m == out.value {
          assert Sourced(m, f, nodes[1..]);
        } else {
          assert m in Emit(d', nodes[1..]);
          if out.Some? {
            assert Sourced(m, Blank, nodes[1..]);
          }
          assert Sourced(m, f, nodes[1..]);
        }
        SourcedShift(m, d, nodes);
      }
    }
  }

  /** Every message of a thread was read from the thread's own nodes. */
  lemma MessagesSourced(nodes: seq<Node>)
    ensures forall m :: m in ParseMessages(nodes) ==> Sourced(m, Blank, nodes)
  {
    EmitSourced(Blank, nodes);
  }

  /** The archive layout of one message: the message `div` (its header
      `div` and the two spans inside are other nodes), then the paragraph
      holding the body. */
  function Render(m: Message): seq<Node> {
    [Header(UserSpan(Some(m.sender)), Some(m.stamp)), Other, Other, Other, Para(Some(m.body))]
  }

  /** The archive layout of a list of messages, in the given order. */
  function RenderAll(ms: seq<Message>): seq<Node>
    decreases |ms|
  {
    if |ms| == 0 then [] else Render(ms[0]) + RenderAll(ms[1..])
  }

  /** One rendered message is read back as exactly that message, and the
      draft is blank again afterwards. */
  lemma EmitRenderOne(m: Message, rest: seq<Node>)
    ensures Emit(Blank, Render(m) + rest) == [m] + Emit(Blank, rest)
  {
    var ns := Render(m) + rest;
    var h := Draft(Some(m.sender), Some(m.stamp), None);
    assert ns[1..] == [Other, Other, Other, Para(Some(m.body))] + rest;
    assert ns[2..] == [Other, Other, Para(Some(m.body))] + rest;
    assert ns[3..] == [Other, Para(Some(m.body))] + rest;
    assert ns[4..] == [Para(Some(m.body))] + rest;
    assert ns[5..] == rest;
    assert Emit(Blank, ns) == Emit(h, ns[1..]);
    assert Emit(h, ns[1..]) == Emit(h, ns[2..]);
    assert Emit(h, ns[2..]) == Emit(h, ns[3..]);
    assert Emit(h, ns[3..]) == Emit(h, ns[4..]);
  }

  /** Reading back a rendered message list gives exactly those messages. */
  lemma {:induction false} EmitRenderAll(ms: seq<Message>)
    ensures Emit(Blank, RenderAll(ms)) == ms
    decreases |ms|
  {
    if |ms| > 0 {
      EmitRenderOne(ms[0], RenderAll(ms[1..]));
      EmitRenderAll(ms[1..]);
      assert ms == [ms[0]] + ms[1..];
    }
  }

  /** A thread written newest first, as the archive does, is read back in
      chronological order: parsing inverts rendering. */
  lemma ParseRenderRoundTrip(ms: seq<Message>)
    ensures ParseMessages(RenderAll(Reverse(ms))) == ms
  {
    EmitRenderAll(Reverse(ms));
    ReverseReverse(ms);
  }

  /** A header followed by a paragraph without text (an attachment-only
      message) yields one complete message whose body is empty. */
  lemma AttachmentOnlyMessage(sender: string, stamp: Stamp, rest: seq<Node>)
    ensures Emit(Blank, [Header(UserSpan(Some(sender)), Some(stamp)), Para(None)] + rest)
         == [Message(sender, stamp, "")] + Emit(Blank, rest)
  {
    var ns := [Header(UserSpan(Some(sender)), Some(stamp)), Para(None)] + rest;
    assert ns[1..] == [Para(None)] + rest;
    assert ns[2..] == rest;
  }
}

=== FILE: owner.dfy ===
/** The archive owner's identity: their UID, display name and aliases. The
    aliases and the UID are registered in the replacement table under the
    display name; the name itself is not. As written, the key is the name
    fixed before the UID joins, possibly `None`. */
module Owner {
  import opened Wrappers
  import opened Registry

  /** The domain the archive appends to a bare numeric UID. */
  const UidDomain: string := "@facebook.com"

  /** Python's `str.isdigit` restricted to ASCII digits. */
  predicate IsDigits(s: string) {
    |s| > 0 && forall i :: 0 <= i < |s| ==> '0' <= s[i] <= '9'
  }

  /** A bare numeric UID written the way the archive shows it. */
  function FormatUid(uid: string): string {
    if IsDigits(uid) then uid + UidDomain else uid
  }

  /** The owner after alias set-up: display name (possibly still unknown),
      aliases, and the replacement table with the aliases registered. */
  datatype Owner = Owner(name: Option<string>, aliases: seq<string>, table: seq<Entry<string>>)

  /** Every name that means the owner in a title: the aliases, then the
      display name. */
  function OwnerNames(o: Owner): seq<string> {
    o.aliases + (if o.name.Some? then [o.name.value] else [])
  }

  /** Alias set-up, corrected: the display name is defaulted before
      registration. The UID (in archive form) joins the aliases unless
      already there, the display name defaults to the first alias, and every
      alias is registered under the display name. */
  function BuildAliases(uid: Option<string>, name: Option<string>, given: seq<string>,
                        table: seq<Entry<string>>): (o: Owner)
    ensures |given| <= |o.aliases| <= |given| + 1 && o.aliases[..|given|] == given
    ensures uid.Some? && IsDigits(uid.value) ==> uid.value + UidDomain in o.aliases
    ensures uid.Some? && !IsDigits(uid.value) ==> uid.value in o.aliases
    ensures |o.aliases| > |given| ==> uid.Some? && o.aliases[|given|] == FormatUid(uid.value) && FormatUid(uid.value) !in given
    ensures name.Some? ==> o.name == name
    ensures name.None? ==> o.name == (if |o.aliases| > 0 then Some(o.aliases[0]) else None)
    ensures o.name.Some? && |o.aliases| > 0 ==>
      Lookup(o.table, o.name.value) == Some(Lookup(table, o.name.value).GetOr([]) + o.aliases)
    ensures forall k :: Some(k) != o.name ==> Lookup(o.table, k) == Lookup(table, k)
    ensures KeysDistinct(table) ==> KeysDistinct(o.table)
  {
    var formatted := if uid.Some? then Some(FormatUid(uid.value)) else None;
    var aliases := if formatted.Some? && formatted.value !in given then given + [formatted.value] else given;
    var owner := if name.Some? then name else if |aliases| > 0 then Some(aliases[0]) else None;
    if owner.Some? then
      RegisterAllOthers(table, owner.value, aliases);
      RegisterAllLookup(table, owner.value, aliases);
      Owner(owner, aliases, RegisterAll(table, owner.value, aliases))
    else
      Owner(owner, aliases, table)
  }

  /** With the corrected set-up, when the display name was not already a
      key of the table, every alias of the owner is replaced by the owner's
      display name. */
  lemma OwnerAliasesResolve(uid: Option<string>, name: Option<string>, given: seq<string>,
                            table: seq<Entry<string>>)
    ensures var o := BuildAliases(uid, name, given, table);
      o.name.Some? && o.name.value !in Keys(table) ==>
        forall a :: a in o.aliases ==> a in Invert(o.table) && Invert(o.table)[a] == o.name.value
  {
    var o := BuildAliases(uid, name, given, table);
    if o.name.Some? && o.name.value !in Keys(table) {
      RegisterAllFreshInverts(table, o.name.value, o.aliases);
    }
  }

  /** With the corrected set-up and only a numeric UID given, the owner is
      named by the UID, and the UID is replaced by that name, i.e. by
      itself. */
  lemma UidOnlyOwnerRegisteredUnderUid(uid: string)
    requires IsDigits(uid)
    ensures var o := BuildAliases(Some(uid), None, [], []);
      && o.name == Some(uid + UidDomain)
      && uid + UidDomain in Invert(o.table)
      && Invert(o.table)[uid + UidDomain] == uid + UidDomain
  {
    OwnerAliasesResolve(Some(uid), None, [], []);
  }

  /** The owner as the source sets it up: Python's `None` can be a name, an
      alias and a table key. */
  datatype OwnerAsWritten = OwnerAsWritten(name: Option<string>, aliases: seq<Option<string>>,
                                           table: seq<Entry<Option<string>>>)

  /** Alias set-up as written: the display name is defaulted from the
      aliases before the UID is appended, registration happens under that
      (possibly `None`) name, and only afterwards does the constructor
      default the name again from the now longer alias list. A missing UID
      is appended as `None`. */
  function BuildAliasesAsWritten(uid: Option<string>, name: Option<string>, given: seq<string>,
                                 table: seq<Entry<Option<string>>>): (o: OwnerAsWritten)
    ensures |o.aliases| > 0
    ensures |given| <= |o.aliases| <= |given| + 1
    ensures forall i :: 0 <= i < |given| ==> o.aliases[i] == Some(given[i])
    ensures |o.aliases| == |given| <==> uid.Some? && FormatUid(uid.value) in given
    ensures |o.aliases| > |given| ==> o.aliases[|given|] == (if uid.Some? then Some(FormatUid(uid.value)) else None)
    ensures name.Some? ==> o.name == name
    ensures name.None? ==> o.name == o.aliases[0]
    ensures var key := EarlyName(name, given);
      Lookup(o.table, key) == Some(Lookup(table, key).GetOr([]) + o.aliases)
    ensures forall k :: k != EarlyName(name, given) ==> Lookup(o.table, k) == Lookup(table, k)
    ensures KeysDistinct(table) ==> KeysDistinct(o.table)
  {
    var listed := Listed(given);
    var early := EarlyName(name, given);
    var formatted := if uid.Some? then Some(FormatUid(uid.value)) else None;
    ListedIn(given, formatted);
    var aliases := if formatted in listed then listed else listed + [formatted];
    RegisterAllOthers(table, early, aliases);
    RegisterAllLookup(table, early, aliases);
    var registered := RegisterAll(table, early, aliases);
    assert forall k :: k != early ==> Lookup(registered, k) == Lookup(table, k);
    var late := if name.None? && |aliases| > 0 then aliases[0] else early;
    OwnerAsWritten(late, aliases, registered)
  }

  /** The given aliases as the source holds them, where `None` may join. */
  function Listed(given: seq<string>): (l: seq<Option<string>>)
    ensures |l| == |given| && forall i :: 0 <= i < |given| ==> l[i] == Some(given[i])
  {
    seq(|given|, i requires 0 <= i < |given| => Some(given[i]))
  }

  /** A name is among the listed aliases exactly when it was given, and
      `None` never is. */
  lemma ListedIn(given: seq<string>, x: Option<string>)
    ensures x in Listed(given) <==> x.Some? && x.value in given
  {
    var l := Listed(given);
    if x in l {
      var i :| 0 <= i < |l| && l[i] == x;
      assert given[i] == x.value;
    }
    if x.Some? && x.value in given {
      var i :| 0 <= i < |given| && given[i] == x.value;
      assert l[i] == x;
    }
  }

  /** The key the source registers the aliases under: the display name, or
      the first given alias, or `None`, fixed before the UID joins. */
  function EarlyName(name: Option<string>, given: seq<string>): Option<string> {
    if name.Some? then name else if |given| > 0 then Some(given[0]) else None
  }

  /** As written, the owner's aliases are replaced by the owner's name
      whenever a name or an alias was given; with neither, they are
      replaced by `None` (when `None` was not already a key). */
  lemma OwnerAliasesResolveAsWritten(uid: Option<string>, name: Option<string>, given: seq<string>,
                                     table: seq<Entry<Option<string>>>)
    ensures var o := BuildAliasesAsWritten(uid, name, given, table);
      (name.Some? || |given| > 0) && o.name !in Keys(table) ==>
        forall a :: a in o.aliases ==> a in Invert(o.table) && Invert(o.table)[a] == o.name
    ensures var o := BuildAliasesAsWritten(uid, name, given, table);
      name.None? && |given| == 0 && None !in Keys(table) ==>
        forall a :: a in o.aliases ==> a in Invert(o.table) && Invert(o.table)[a] == None
  {
    var o := BuildAliasesAsWritten(uid, name, given, table);
    var key := EarlyName(name, given);
    assert name.Some? || |given| > 0 ==> o.name == key;
    if key !in Keys(table) {
      RegisterAllFreshInverts(table, key, o.aliases);
    }
  }

  /** When a UID is given, the set-up as written builds the same display
      name and the same aliases as the corrected one; only the key the
      aliases are registered under can differ. */
  lemma AsWrittenAgreesWithUid(uid: string, name: Option<string>, given: seq<string>,
                               table: seq<Entry<string>>, listed: seq<Entry<Option<string>>>)
    ensures var a := BuildAliasesAsWritten(Some(uid), name, given, listed);
      var c := BuildAliases(Some(uid), name, given, table);
      && |a.aliases| == |c.aliases|
      && (forall i :: 0 <= i < |c.aliases| ==> a.aliases[i] == Some(c.aliases[i]))
      && a.name == c.name
  {
  }

  /** With only a numeric UID given, the source names the owner by the UID
      but registers the UID under `None`: the owner's UID is replaced by
      `None` instead of by the owner's name. */
  lemma UidOnlyOwnerRegisteredUnderNull(uid: string)
    requires IsDigits(uid)
    ensures var o := BuildAliasesAsWritten(Some(uid), None, [], []);
      && o.name == Some(uid + UidDomain)
      && Some(uid + UidDomain) in Invert(o.table)
      && Invert(o.table)[Some(uid + UidDomain)] == None
  {
    var o := BuildAliasesAsWritten(Some(uid), None, [], []);
    var u := Some(uid + UidDomain);
    assert o.aliases == [u];
    RegisterAllFresh([], None, [u]);
    assert o.table == [Entry(None, [u])];
    InvertLastWins(o.table, u);
  }
}

=== FILE: registry.dfy ===
/** The replacement table: a dict from a preferred name to the list of names
    it replaces, filled like a `defaultdict(list)` and kept in insertion
    order, and its inversion into a map from each replaced name to its
    preferred name. */
module Registry {
  import opened Wrappers

  /** One key of the table with its list of variants. */
  datatype Entry<K> = Entry(key: K, variants: seq<K>)

  /** The keys of the table. */
  function Keys<K>(reg: seq<Entry<K>>): set<K> {
    set i | 0 <= i < |reg| :: reg[i].key
  }

  /** No key occurs twice, as in a dict. */
  predicate KeysDistinct<K(==)>(reg: seq<Entry<K>>) {
    forall i, j :: 0 <= i < j < |reg| ==> reg[i].key != reg[j].key
  }

  /** The variant list stored under `k`, if `k` is a key. */
  function Lookup<K(==)>(reg: seq<Entry<K>>, k: K): (r: Option<seq<K>>)
    ensures r.Some? <==> k in Keys(reg)
    decreases |reg|
  {
    if |reg| == 0 then None
    else if reg[0].key == k then Some(reg[0].variants)
    else
      assert Keys(reg) == {reg[0].key} + Keys(reg[1..]) by {
        assert forall i :: 0 < i < |reg| ==> reg[i] == reg[1..][i - 1];
      }
      Lookup(reg[1..], k)
  }

  /** `table[key].append(v)` on a `defaultdict(list)`: a missing key is
      created at the end with an empty list first. */
  function Register<K(==)>(reg: seq<Entry<K>>, key: K, v: K): (r: seq<Entry<K>>)
    decreases |reg|
  {
    if |reg| == 0 then [Entry(key, [v])]
    else if reg[0].key == key then [reg[0].(variants := reg[0].variants + [v])] + reg[1..]
    else [reg[0]] + Register(reg[1..], key, v)
  }

  /** The keys of a table are its first key and the keys of the rest. */
  lemma KeysCons<K>(reg: seq<Entry<K>>)
    requires |reg| > 0
    ensures Keys(reg) == {reg[0].key} + Keys(reg[1..])
  {
    assert forall i :: 0 < i < |reg| ==> reg[i] == reg[1..][i - 1];
  }

  /** Registering appends `v` to the list under `key` and leaves the list of
      every other key as it was. */
  lemma {:induction false} RegisterLookup<K>(reg: seq<Entry<K>>, key: K, v: K)
    ensures Lookup(Register(reg, key, v), key) == Some(Lookup(reg, key).GetOr([]) + [v])
    ensures forall k :: k != key ==> Lookup(Register(reg, key, v), k) == Lookup(reg, k)
    decreases |reg|
  {
    var r := Register(reg, key, v);
    if |reg| == 0 {
      assert Lookup(r, key) == Some([v]);
      assert Lookup(reg, key).GetOr([]) + [v] == [v];
    } else if reg[0].key != key {
      RegisterLookup(reg[1..], key, v);
      assert r[1..] == Register(reg[1..], key, v);
    } else {
      assert r[0] == reg[0].(variants := reg[0].variants + [v]);
      assert r[1..] == reg[1..];
    }
  }

  /** Registering keeps every key at its position, adds `key` at the end
      when it is new, and keeps keys distinct. */
  lemma RegisterShape<K>(reg: seq<Entry<K>>, key: K, v: K)
    ensures var r := Register(reg, key, v);
      && Keys(r) == Keys(reg) + {key}
      && |r| == (if key in Keys(reg) then |reg| else |reg| + 1)
      && (forall i :: 0 <= i < |reg| ==> r[i].key == reg[i].key)
      && (key !in Keys(reg) ==> r == reg + [Entry(key, [v])])
  {
    RegisterKeys(reg, key, v);
    if key !in Keys(reg) {
      RegisterFresh(reg, key, v);
    }
  }

  /** Registering keeps every key at its position and adds `key`. */
  lemma {:induction false} RegisterKeys<K>(reg: seq<Entry<K>>, key: K, v: K)
    ensures var r := Register(reg, key, v);
      && Keys(r) == Keys(reg) + {key}
      && |r| == (if key in Keys(reg) then |reg| else |reg| + 1)
      && (forall i :: 0 <= i < |reg| ==> r[i].key == reg[i].key)
    decreases |reg|
  {
    var r := Register(reg, key, v);
    if |reg| == 0 {
      KeysCons(r);
      assert Keys(r[1..]) == {};
    } else {
      KeysCons(reg);
      KeysCons(r);
      if reg[0].key != key {
        RegisterKeys(reg[1..], key, v);
        assert r[1..] == Register(reg[1..], key, v);
      } else {
        assert r[1..] == reg[1..];
      }
    }
  }

  /** A new key is added at the end with the one variant. */
  lemma {:induction false} RegisterFresh<K>(reg: seq<Entry<K>>, key: K, v: K)
    requires key !in Keys(reg)
    ensures Register(reg, key, v) == reg + [Entry(key, [v])]
    decreases |reg|
  {
    if |reg| > 0 {
      KeysCons(reg);
      RegisterFresh(reg[1..], key, v);
      assert reg == [reg[0]] + reg[1..];
    }
  }

  /** Registering keeps the keys distinct. */
  lemma RegisterDistinct<K>(reg: seq<Entry<K>>, key: K, v: K)
    requires KeysDistinct(reg)
    ensures KeysDistinct(Register(reg, key, v))
  {
    var r := Register(reg, key, v);
    RegisterShape(reg, key, v);
    if key !in Keys(reg) {
      forall i | 0 <= i < |reg| ensures reg[i].key != key {
        assert reg[i].key in Keys(reg);
      }
    }
  }

  /** Registering every element of `vs`, in order, under `key`. */
  function RegisterAll<K(==)>(reg: seq<Entry<K>>, key: K, vs: seq<K>): seq<Entry<K>>
    decreases |vs|
  {
    if |vs| == 0 then reg else RegisterAll(Register(reg, key, vs[0]), key, vs[1..])
  }

  /** Registering a non-empty list appends it to the list under `key`. */
  lemma {:induction false} RegisterAllLookup<K>(reg: seq<Entry<K>>, key: K, vs: seq<K>)
    ensures |vs| > 0 ==> Lookup(RegisterAll(reg, key, vs), key) == Some(Lookup(reg, key).GetOr([]) + vs)
    decreases |vs|
  {
    if |vs| > 0 {
      RegisterLookup(reg, key, vs[0]);
      var have := Lookup(reg, key).GetOr([]);
      if |vs| > 1 {
        RegisterAllLookup(Register(reg, key, vs[0]), key, vs[1..]);
        AppendHead(have, vs);
      } else {
        assert vs == [vs[0]];
      }
    }
  }

  /** Appending the head of `vs` and then its tail appends all of `vs`. */
  lemma AppendHead<K>(have: seq<K>, vs: seq<K>)
    requires |vs| > 0
    ensures have + [vs[0]] + vs[1..] == have + vs
  {
    assert [vs[0]] + vs[1..] == vs;
  }

  /** Registering a list under `key` leaves every other key's list as it was
      and keeps the keys distinct. */
  lemma {:induction false} RegisterAllOthers<K>(reg: seq<Entry<K>>, key: K, vs: seq<K>)
    ensures forall k :: k != key ==> Lookup(RegisterAll(reg, key, vs), k) == Lookup(reg, k)
    ensures KeysDistinct(reg) ==> KeysDistinct(RegisterAll(reg, key, vs))
    decreases |vs|
  {
    if |vs| > 0 {
      RegisterLookup(reg, key, vs[0]);
      if KeysDistinct(reg) {
        RegisterDistinct(reg, key, vs[0]);
      }
      RegisterAllOthers(Register(reg, key, vs[0]), key, vs[1..]);
    }
  }

  /** Registering a list under a key that is not in the table yet adds one
      entry at the end holding exactly that list. */
  lemma {:induction false} RegisterAllFresh<K>(reg: seq<Entry<K>>, key: K, vs: seq<K>)
    requires key !in Keys(reg) && |vs| > 0
    ensures RegisterAll(reg, key, vs) == reg + [Entry(key, vs)]
  {
    RegisterShape(reg, key, vs[0]);
    RegisterAllOnto(reg, key, [vs[0]], vs[1..]);
    assert [vs[0]] + vs[1..] == vs;
  }

  /** Registering a list under a key not yet in the table makes every
      listed value invert to that key. */
  lemma RegisterAllFreshInverts<K>(reg: seq<Entry<K>>, key: K, vs: seq<K>)
    requires key !in Keys(reg)
    ensures forall v :: v in vs ==> v in Invert(RegisterAll(reg, key, vs)) && Invert(RegisterAll(reg, key, vs))[v] == key
  {
    if |vs| > 0 {
      var r := RegisterAll(reg, key, vs);
      RegisterAllFresh(reg, key, vs);
      assert r == reg + [Entry(key, vs)];
      forall v | v in vs
        ensures v in Invert(r) && Invert(r)[v] == key
      {
        InvertLastWins(r, v);
        assert v in r[|reg|].variants;
      }
    }
  }

  /** Registering more under the key of the last entry extends that entry. */
  lemma {:induction false} RegisterAllOnto<K>(reg: seq<Entry<K>>, key: K, have: seq<K>, vs: seq<K>)
    requires key !in Keys(reg)
    ensures RegisterAll(reg + [Entry(key, have)], key, vs) == reg + [Entry(key, have + vs)]
    decreases |vs|
  {
    if |vs| == 0 {
      assert have + vs == have;
    } else {
      RegisterLast(reg, key, have, vs[0]);
      RegisterAllOnto(reg, key, have + [vs[0]], vs[1..]);
      assert have + [vs[0]] + vs[1..] == have + vs;
    }
  }

  /** Registering under the key of the last entry appends to that entry. */
  lemma {:induction false} RegisterLast<K>(reg: seq<Entry<K>>, key: K, have: seq<K>, v: K)
    requires key !in Keys(reg)
    ensures Register(reg + [Entry(key, have)], key, v) == reg + [Entry(key, have + [v])]
    decreases |reg|
  {
    if |reg| == 0 {
      assert reg + [Entry(key, have)] == [Entry(key, have)];
    } else {
      assert reg[0].key in Keys(reg);
      assert Keys(reg[1..]) <= Keys(reg) by {
        assert forall i :: 0 <= i < |reg| - 1 ==> reg[1..][i] == reg[i + 1];
      }
      RegisterLast(reg[1..], key, have, v);
      assert (reg + [Entry(key, have)])[1..] == reg[1..] + [Entry(key, have)];
      assert reg == [reg[0]] + reg[1..];
    }
  }

  /** The variants of one entry, each sent to the entry's key. */
  function EntryMap<K(==)>(e: Entry<K>): map<K, K> {
    map v | v in e.variants :: e.key
  }

  /** Inverting the table, entry by entry in insertion order: a variant
      registered under several keys ends up with the last of them. */
  function Invert<K(==)>(reg: seq<Entry<K>>): map<K, K>
    decreases |reg|
  {
    if |reg| == 0 then map[] else Invert(reg[..|reg| - 1]) + EntryMap(reg[|reg| - 1])
  }

  /** A variant is in the inverted map exactly when some entry lists it, and
      it maps to the key of the last entry that does. */
  lemma {:induction false} InvertLastWins<K>(reg: seq<Entry<K>>, v: K)
    ensures v in Invert(reg) <==> exists i :: 0 <= i < |reg| && v in reg[i].variants
    ensures forall i :: 0 <= i < |reg| && v in reg[i].variants && (forall j :: i < j < |reg| ==> v !in reg[j].variants) ==>
      v in Invert(reg) && Invert(reg)[v] == reg[i].key
    decreases |reg|
  {
    if |reg| > 0 {
      var init := reg[..|reg| - 1];
      var last := reg[|reg| - 1];
      InvertLastWins(init, v);
      if v in last.variants {
        assert v in Invert(reg) && Invert(reg)[v] == last.key;
      } else {
        assert v in Invert(reg) <==> v in Invert(init);
        if v in Invert(reg) {
          assert Invert(reg)[v] == Invert(init)[v];
        }
        forall i | 0 <= i < |reg| && v in reg[i].variants
          ensures i < |reg| - 1 && v in init[i].variants
        {
        }
      }
    }
  }

  /** The flip in `replacements`: for each `old=new` line, in order,
      `table[new].append(old)`. */
  function Flip<K(==)>(pairs: seq<(K, K)>): seq<Entry<K>>
    decreases |pairs|
  {
    if |pairs| == 0 then []
    else
      var last := pairs[|pairs| - 1];
      Register(Flip(pairs[..|pairs| - 1]), last.1, last.0)
  }

  /** The flipped table has distinct keys and lists `old` under `new`
      exactly when `old=new` is one of the lines. */
  lemma {:induction false} FlipContents<K>(pairs: seq<(K, K)>)
    ensures KeysDistinct(Flip(pairs))
    ensures forall k, was :: was in Lookup(Flip(pairs), k).GetOr([]) <==> (was, k) in pairs
    decreases |pairs|
  {
    if |pairs| > 0 {
      var init := pairs[..|pairs| - 1];
      var last := pairs[|pairs| - 1];
      var reg := Flip(init);
      var r := Flip(pairs);
      FlipContents(init);
      RegisterLookup(reg, last.1, last.0);
      RegisterDistinct(reg, last.1, last.0);
      assert pairs == init + [last];
      forall k, was
        ensures was in Lookup(r, k).GetOr([]) <==> (was, k) in pairs
      {
        if k == last.1 {
          assert Lookup(r, k).GetOr([]) == Lookup(reg, k).GetOr([]) + [last.0];
        } else {
          assert Lookup(r, k) == Lookup(reg, k);
        }
      }
    }
  }

  /** An index holding a given key. */
  ghost function KeyIndex<K>(reg: seq<Entry<K>>, k: K): (i: nat)
    requires k in Keys(reg)
    ensures i < |reg| && reg[i].key == k
  {
    var i :| 0 <= i < |reg| && reg[i].key == k; i
  }

  /** With distinct keys, the entry at `i` is the one found by key. */
  lemma {:induction false} FirstEntry<K>(reg: seq<Entry<K>>, i: nat)
    requires KeysDistinct(reg) && i < |reg|
    ensures Lookup(reg, reg[i].key) == Some(reg[i].variants)
    decreases i
  {
    if i > 0 {
      FirstEntry(reg[1..], i - 1);
    }
  }

  /** Reading `old=new` lines with distinct left sides, flipping them and
      inverting the result sends every `old` to its own `new` and nothing
      else is in the map. */
  lemma {:induction false} FlipInvert<K>(pairs: seq<(K, K)>)
    requires forall i, j :: 0 <= i < j < |pairs| ==> pairs[i].0 != pairs[j].0
    ensures forall i :: 0 <= i < |pairs| ==>
      pairs[i].0 in Invert(Flip(pairs)) && Invert(Flip(pairs))[pairs[i].0] == pairs[i].1
    ensures forall was :: was in Invert(Flip(pairs)) ==> exists i :: 0 <= i < |pairs| && pairs[i].0 == was
  {
    var r := Flip(pairs);
    FlipContents(pairs);
    forall i | 0 <= i < |pairs|
      ensures pairs[i].0 in Invert(r) && Invert(r)[pairs[i].0] == pairs[i].1
    {
      var (was, now) := pairs[i];
      FlipKey(pairs, i);
      var e := KeyIndex(r, now);
      FirstEntry(r, e);
      assert was in r[e].variants;
      forall j | e < j < |r|
        ensures was !in r[j].variants
      {
        FlipHolder(pairs, i, j);
        assert r[j].key != r[e].key;
      }
      InvertLastWins(r, was);
    }
    forall was | was in Invert(r)
      ensures exists i :: 0 <= i < |pairs| && pairs[i].0 == was
    {
      InvertLastWins(r, was);
      var e :| 0 <= e < |r| && was in r[e].variants;
      FirstEntry(r, e);
      assert (was, r[e].key) in pairs;
      var q :| 0 <= q < |pairs| && pairs[q] == (was, r[e].key);
    }
  }

  /** With distinct left sides, only the entry of its own right side lists
      the left side of a line. */
  lemma {:induction false} FlipHolder<K>(pairs: seq<(K, K)>, i: nat, j: nat)
    requires forall i, j :: 0 <= i < j < |pairs| ==> pairs[i].0 != pairs[j].0
    requires i < |pairs| && j < |Flip(pairs)|
    ensures pairs[i].0 in Flip(pairs)[j].variants ==> Flip(pairs)[j].key == pairs[i].1
  {
    var r := Flip(pairs);
    FlipContents(pairs);
    FirstEntry(r, j);
    if pairs[i].0 in r[j].variants {
      assert pairs[i].0 in Lookup(r, r[j].key).GetOr([]);
      assert (pairs[i].0, r[j].key) in pairs;
      var q :| 0 <= q < |pairs| && pairs[q] == (pairs[i].0, r[j].key);
      assert q == i;
    }
  }

  /** Every right side of a line is a key of the flipped table. */
  lemma {:induction false} FlipKey<K>(pairs: seq<(K, K)>, i: nat)
    requires i < |pairs|
    ensures pairs[i].1 in Keys(Flip(pairs))
    decreases |pairs|
  {
    var init := pairs[..|pairs| - 1];
    var last := pairs[|pairs| - 1];
    RegisterShape(Flip(init), last.1, last.0);
    if i < |pairs| - 1 {
      FlipKey(init, i);
    }
  }
}

=== FILE: rewrite.dfy ===
/** Rewriting one thread fragment: names replaced through the inverted
    replacement table, the owner's own names dropped from the title, the
    title rebuilt from the remaining names, and every sender replaced. */
module Rewrite {
  import opened Wrappers
  import opened Seqs
  import opened Text
  import opened Messages
  import opened Threads

  /** The name written in place of `n`. */
  function Replace(n: string, inv: map<string, string>): string {
    if n in inv then inv[n] else n
  }

  /** Every name of a list replaced, position by position. */
  function ReplaceAll(names: seq<string>, inv: map<string, string>): (r: seq<string>)
    ensures |r| == |names|
    ensures forall i :: 0 <= i < |names| ==> r[i] == Replace(names[i], inv)
  {
    seq(|names|, i requires 0 <= i < |names| => Replace(names[i], inv))
  }

  /** The names in a thread title: the title split at `", "` when it holds
      one, otherwise the title alone. Either way the names joined back give
      the title. */
  function TitleNames(title: string): (r: seq<string>)
    ensures |r| >= 1
    ensures Join(r, TitleSeparator) == title
  {
    if Contains(title, TitleSeparator) then
      JoinSplit(title, TitleSeparator);
      Split(title, TitleSeparator)
    else [title]
  }

  /** The `in` test before splitting changes nothing: the title names are
      exactly the split of the title. */
  lemma TitleNamesIsSplit(title: string)
    ensures TitleNames(title) == Split(title, TitleSeparator)
  {
    if !Contains(title, TitleSeparator) {
      SplitWithoutSeparator(title, TitleSeparator);
    }
  }

  /** The names of a list that are not the owner's, in order. */
  function Others(names: seq<string>, mine: seq<string>): (r: seq<string>)
    ensures |r| <= |names|
    ensures forall x :: x in r <==> x in names && x !in mine
  {
    if |names| == 0 then []
    else
      assert names == [names[0]] + names[1..];
      (if names[0] in mine then [] else [names[0]]) + Others(names[1..], mine)
  }

  /** The title-name loop, intended form: walking the names in order, each
      owner name is deleted as long as more than one name is left. */
  function DropOwners(kept: seq<string>, rest: seq<string>, mine: seq<string>): seq<string>
    decreases |rest|
  {
    if |rest| == 0 then kept
    else if rest[0] in mine && |kept| + |rest| > 1 then DropOwners(kept, rest[1..], mine)
    else DropOwners(kept + [rest[0]], rest[1..], mine)
  }

  /** With the intended loop, deleting owner names while more than one is
      left removes them all, unless every name is the owner's, when the
      last one stays. */
  lemma {:induction false} DropOwnersSpec(kept: seq<string>, rest: seq<string>, mine: seq<string>)
    requires forall i :: 0 <= i < |kept| ==> kept[i] !in mine
    ensures |kept| + |Others(rest, mine)| > 0 ==> DropOwners(kept, rest, mine) == kept + Others(rest, mine)
    ensures |kept| + |Others(rest, mine)| == 0 && |rest| > 0 ==> DropOwners(kept, rest, mine) == [rest[|rest| - 1]]
    decreases |rest|
  {
    if |rest| > 0 {
      var x := rest[0];
      var tail := rest[1..];
      assert rest == [x] + tail;
      if x in mine && |kept| + |rest| > 1 {
        DropOwnersSpec(kept, tail, mine);
        assert Others(rest, mine) == Others(tail, mine);
        if |kept| + |Others(rest, mine)| == 0 {
          assert |tail| > 0;
          assert rest[|rest| - 1] == tail[|tail| - 1];
        }
      } else if x in mine {
        assert kept == [] && tail == [];
        assert DropOwners(kept, rest, mine) == DropOwners([x], [], mine);
      } else {
        DropOwnersSpec(kept + [x], tail, mine);
        assert Others(rest, mine) == [x] + Others(tail, mine);
        assert kept + [x] + Others(tail, mine) == kept + Others(rest, mine);
      }
    }
  }

  /** The title names after replacement and owner removal, intended form:
      the replaced names that are not the owner's, or, when every one is the
      owner's, the last of them. */
  function RewriteNames(names: seq<string>, inv: map<string, string>, mine: seq<string>): (r: seq<string>)
    requires |names| >= 1
    ensures |r| >= 1
    ensures |Others(ReplaceAll(names, inv), mine)| > 0 ==> r == Others(ReplaceAll(names, inv), mine)
    ensures |Others(ReplaceAll(names, inv), mine)| == 0 ==> r == [Replace(names[|names| - 1], inv)]
  {
    DropOwnersSpec([], ReplaceAll(names, inv), mine);
    DropOwners([], ReplaceAll(names, inv), mine)
  }

  /** The title-name loop as written: Python's list iterator moves to the
      next index after a deletion, so the name that slid into the deleted
      slot is neither replaced nor checked. */
  function RewriteFromAsWritten(names: seq<string>, i: nat, inv: map<string, string>,
                                mine: seq<string>): (r: seq<string>)
    requires |names| >= 1 && i <= |names| + 1
    ensures 1 <= |r| <= |names|
    decreases |names| + 1 - i
  {
    if i >= |names| then names
    else
      var n := Replace(names[i], inv);
      var replaced := names[i := n];
      if n in mine && |replaced| > 1 then
        RewriteFromAsWritten(replaced[..i] + replaced[i + 1..], i + 1, inv, mine)
      else
        RewriteFromAsWritten(replaced, i + 1, inv, mine)
  }

  /** The title-name loop as written, over the whole list. */
  function RewriteNamesAsWritten(names: seq<string>, inv: map<string, string>, mine: seq<string>): (r: seq<string>)
    requires |names| >= 1
    ensures 1 <= |r| <= |names|
  {
    RewriteFromAsWritten(names, 0, inv, mine)
  }

  /** The title-name loop as written, step by step: `enumerate` moves on to
      the next index while `del` shortens the list under it. */
  method RewriteTitleNames(names: seq<string>, inv: map<string, string>, mine: seq<string>)
    returns (title: seq<string>)
    requires |names| >= 1
    ensures title == RewriteNamesAsWritten(names, inv, mine)
  {
    title := names;
    var index := 0;
    while index < |title|
      invariant 1 <= |title| <= |names| && index <= |title| + 1
      invariant RewriteFromAsWritten(title, index, inv, mine) == RewriteNamesAsWritten(names, inv, mine)
      decreases |title| + 1 - index
    {
      ghost var before := title;
      if title[index] in inv {
        title := title[index := inv[title[index]]];
      }
      assert title == before[index := Replace(before[index], inv)];
      if title[index] in mine && |title| > 1 {
        title := title[..index] + title[index + 1..];
      }
      index := index + 1;
    }
  }

  /** An owner name followed by a name with a replacement: as written the
      second name keeps its archive form; intended, it is replaced. */
  lemma SkipAfterDelete(me: string, was: string, canonical: string)
    requires me != was && me != canonical && was != canonical
    ensures RewriteNamesAsWritten([me, was], map[was := canonical], [me]) == [was]
    ensures RewriteNames([me, was], map[was := canonical], [me]) == [canonical]
  {
    var inv := map[was := canonical];
    assert Replace(me, inv) == me;
    assert [me, was][0 := me][..0] + [me, was][0 := me][1..] == [was];
    assert RewriteFromAsWritten([was], 1, inv, [me]) == [was];
    assert RewriteFromAsWritten([me, was], 0, inv, [me]) == RewriteFromAsWritten([was], 1, inv, [me]);
    assert ReplaceAll([me, was], inv) == [me, canonical];
    assert Others([canonical], [me]) == [canonical];
    assert Others([me, canonical], [me]) == Others([canonical], [me]);
  }

  /** The owner's name followed by an old name of the owner's: as written
      the old name is skipped, so it stays in the title beside the other
      person's name; intended, only the other person is left. */
  lemma OwnerKeptAfterOwner(me: string, alias: string, friend: string)
    requires me != alias && me != friend && alias != friend
    ensures RewriteNamesAsWritten([me, alias, friend], map[alias := me], [alias, me]) == [alias, friend]
    ensures RewriteNames([me, alias, friend], map[alias := me], [alias, me]) == [friend]
  {
    var names := [me, alias, friend];
    var inv := map[alias := me];
    var mine := [alias, me];
    assert Replace(me, inv) == me && Replace(friend, inv) == friend;
    assert names[0 := me][..0] + names[0 := me][1..] == [alias, friend];
    assert [alias, friend][1 := friend] == [alias, friend];
    assert RewriteFromAsWritten([alias, friend], 2, inv, mine) == [alias, friend];
    assert RewriteFromAsWritten([alias, friend], 1, inv, mine) == [alias, friend];
    assert RewriteFromAsWritten(names, 0, inv, mine) == RewriteFromAsWritten([alias, friend], 1, inv, mine);
    assert ReplaceAll(names, inv) == [me, me, friend];
    assert Others([friend], mine) == [friend];
    assert Others([me, friend], mine) == Others([friend], mine);
    assert Others([me, me, friend], mine) == Others([me, friend], mine);
  }

  /** From position `i` on, with no replaced name the owner's, the loop as
      written only replaces. */
  lemma {:induction false} AsWrittenFromWithoutOwner(names: seq<string>, i: nat, inv: map<string, string>,
                                                    mine: seq<string>)
    requires |names| >= 1 && i <= |names|
    requires forall j :: i <= j < |names| ==> Replace(names[j], inv) !in mine
    ensures RewriteFromAsWritten(names, i, inv, mine) == names[..i] + ReplaceAll(names[i..], inv)
    decreases |names| - i
  {
    if i < |names| {
      var replaced := names[i := Replace(names[i], inv)];
      AsWrittenFromWithoutOwner(replaced, i + 1, inv, mine);
      assert replaced[..i + 1] + ReplaceAll(replaced[i + 1..], inv) == names[..i] + ReplaceAll(names[i..], inv);
    } else {
      assert names[i..] == [];
    }
  }

  /** When no title name is (or is replaced by) one of the owner's, the loop
      as written and the intended one agree: every name is replaced. */
  lemma AsWrittenAgreesWithoutOwner(names: seq<string>, inv: map<string, string>, mine: seq<string>)
    requires |names| >= 1
    requires forall j :: 0 <= j < |names| ==> Replace(names[j], inv) !in mine
    ensures RewriteNamesAsWritten(names, inv, mine) == ReplaceAll(names, inv)
    ensures RewriteNames(names, inv, mine) == ReplaceAll(names, inv)
  {
    AsWrittenFromWithoutOwner(names, 0, inv, mine);
    assert names[..0] + ReplaceAll(names[0..], inv) == ReplaceAll(names, inv);
    OthersNone(ReplaceAll(names, inv), mine);
  }

  /** Nothing is dropped from a list with none of the owner's names. */
  lemma {:induction false} OthersNone(names: seq<string>, mine: seq<string>)
    requires forall j :: 0 <= j < |names| ==> names[j] !in mine
    ensures Others(names, mine) == names
  {
    if |names| > 0 {
      OthersNone(names[1..], mine);
      assert names == [names[0]] + names[1..];
    }
  }

  /** No name contains the rebuilt title's separator. */
  predicate CommaFree(names: seq<string>) {
    forall i :: 0 <= i < |names| ==> ',' !in names[i]
  }

  /** A title rebuilt from comma-free names splits back into those names. */
  lemma RebuiltTitleSplits(names: seq<string>)
    requires |names| >= 1
    ensures CommaFree(names) ==> Split(Join(names, TitleJoiner), TitleJoiner) == names
  {
    if CommaFree(names) {
      assert TitleJoiner == [','];
      SplitJoinChar(names, ',');
    }
  }

  /** The new title: a single name as it is, several joined with a comma,
      which is the comma join in both cases; with no names left the source
      raises. The title determines the names when none of them holds a
      comma. */
  function RebuildTitle(names: seq<string>): (r: Result<string, Error>)
    ensures r.Success? <==> |names| > 0
    ensures r.Failure? ==> r.error == RanOutOfNames
    ensures r.Success? ==> r.value == Join(names, TitleJoiner)
    ensures r.Success? && CommaFree(names) ==> Split(r.value, TitleJoiner) == names
  {
    if |names| == 0 then Failure(RanOutOfNames)
    else
      var title := if |names| == 1 then names[0] else Join(names, TitleJoiner);
      RebuiltTitleSplits(names);
      Success(title)
  }

  /** Every message's sender replaced; stamps and bodies untouched. */
  function RewriteSenders(ms: seq<Message>, inv: map<string, string>): (r: seq<Message>)
    ensures |r| == |ms|
    ensures Senders(r) == ReplaceAll(Senders(ms), inv)
    ensures forall i :: 0 <= i < |ms| ==> r[i].stamp == ms[i].stamp && r[i].body == ms[i].body
  {
    seq(|ms|, i requires 0 <= i < |ms| => ms[i].(sender := Replace(ms[i].sender, inv)))
  }

  /** After rewriting, a thread's participants are exactly the replaced
      names of its old senders, each once. */
  lemma RewrittenParticipants(ms: seq<Message>, t: Thread, inv: map<string, string>,
                              pick: seq<string> -> seq<string>)
    requires ValidPick(pick)
    requires |ms| > 0 && t.messages == RewriteSenders(ms, inv) && t.participants == Pending
    ensures forall x :: x in Participants(t, pick).0 <==>
      exists i :: 0 <= i < |ms| && x == Replace(ms[i].sender, inv)
  {
    var names := Participants(t, pick).0;
    var senders := Senders(t.messages);
    assert Enumerates(names, senders);
    forall x
      ensures x in names <==> exists i :: 0 <= i < |ms| && x == Replace(ms[i].sender, inv)
    {
      if x in names {
        var k :| 0 <= k < |names| && names[k] == x;
        assert names[k] in senders;
        var i :| 0 <= i < |senders| && senders[i] == x;
        assert x == Replace(ms[i].sender, inv);
      }
      if exists i :: 0 <= i < |ms| && x == Replace(ms[i].sender, inv) {
        var i :| 0 <= i < |ms| && x == Replace(ms[i].sender, inv);
        assert senders[i] == x;
      }
    }
  }

  /** One fragment rewritten with the intended title-name loop: its title
      is the rewritten names, in the order `pick` gives, joined with a
      comma, and when no name holds a comma it lists every one of them once;
      its senders are replaced, and the step never runs out of names. */
  function Resolve(t: Thread, inv: map<string, string>, mine: seq<string>,
                   pick: seq<string> -> seq<string>): (r: Result<Thread, Error>)
    requires ValidPick(pick)
    ensures r.Success?
    ensures r.value.participants == t.participants
    ensures |r.value.messages| == |t.messages|
    ensures Senders(r.value.messages) == ReplaceAll(Senders(t.messages), inv)
    ensures forall i :: 0 <= i < |t.messages| ==>
      r.value.messages[i].stamp == t.messages[i].stamp && r.value.messages[i].body == t.messages[i].body
    ensures var u := RewriteNames(TitleNames(t.title), inv, mine);
      r.value.title == Join(pick(u), TitleJoiner)
    ensures var u := RewriteNames(TitleNames(t.title), inv, mine);
      CommaFree(u) ==> Enumerates(Split(r.value.title, TitleJoiner), u)
  {
    var u := RewriteNames(TitleNames(t.title), inv, mine);
    var names := pick(u);
    assert Enumerates(names, u);
    assert u[0] in names;
    CommaFreeEnumeration(names, u);
    var title := RebuildTitle(names);
    if title.Failure? then Failure(RanOutOfNames)
    else Success(Thread(title.value, RewriteSenders(t.messages, inv), t.participants))
  }

  /** One fragment rewritten by the title-name loop as written: its title
      is the names the loop leaves, in the order `pick` gives, joined with a
      comma. Its names are never all deleted, so this step never runs out
      of names either. */
  function ResolveAsWritten(t: Thread, inv: map<string, string>, mine: seq<string>,
                            pick: seq<string> -> seq<string>): (r: Result<Thread, Error>)
    requires ValidPick(pick)
    ensures r.Success?
    ensures r.value.participants == t.participants
    ensures Senders(r.value.messages) == ReplaceAll(Senders(t.messages), inv)
    ensures var u := RewriteNamesAsWritten(TitleNames(t.title), inv, mine);
      r.value.title == Join(pick(u), TitleJoiner)
    ensures var u := RewriteNamesAsWritten(TitleNames(t.title), inv, mine);
      CommaFree(u) ==> Enumerates(Split(r.value.title, TitleJoiner), u)
  {
    var u := RewriteNamesAsWritten(TitleNames(t.title), inv, mine);
    var names := pick(u);
    assert Enumerates(names, u);
    assert u[0] in names;
    CommaFreeEnumeration(names, u);
    var title := RebuildTitle(names);
    if title.Failure? then Failure(RanOutOfNames)
    else Success(Thread(title.value, RewriteSenders(t.messages, inv), t.participants))
  }

  /** As written, a two-person title naming the owner leaves the owner out
      in either order, but the other name is replaced only when the owner
      comes second: when the owner comes first, the other name slides into
      the deleted slot and keeps its archive form. */
  lemma PairTitleAsWritten(a: string, b: string, t: Thread, inv: map<string, string>,
                           mine: seq<string>, pick: seq<string> -> seq<string>)
    requires ValidPick(pick)
    requires !Contains(a, TitleSeparator) && !Contains(b, TitleSeparator)
    requires t.title == a + TitleSeparator + b
    requires Replace(a, inv) in mine || Replace(b, inv) in mine
    ensures ResolveAsWritten(t, inv, mine, pick).value.title ==
      if Replace(a, inv) in mine then b else Replace(a, inv)
  {
    var other := if Replace(a, inv) in mine then b else Replace(a, inv);
    var pair := [a, b];
    assert Join(pair, TitleSeparator) == t.title;
    SplitJoin(pair);
    TitleNamesIsSplit(t.title);
    var n := Replace(a, inv);
    var replaced := pair[0 := n];
    assert replaced == [n, b];
    if n in mine {
      assert replaced[..0] + replaced[1..] == [b];
      assert RewriteFromAsWritten([b], 1, inv, mine) == [b];
    } else {
      var m := Replace(b, inv);
      assert replaced[1 := m] == [n, m];
      assert [n, m][..1] + [n, m][2..] == [n];
      assert RewriteFromAsWritten([n], 2, inv, mine) == [n];
      assert RewriteFromAsWritten([n, b], 1, inv, mine) == [n];
    }
    var u := RewriteNamesAsWritten(pair, inv, mine);
    assert u == [other];
    EnumeratesSingleton(pick(u), other);
  }

  /** An enumeration of comma-free names is comma-free. */
  lemma CommaFreeEnumeration(names: seq<string>, u: seq<string>)
    requires Enumerates(names, u)
    ensures CommaFree(u) ==> CommaFree(names)
  {
    if CommaFree(u) {
      forall i | 0 <= i < |names|
        ensures ',' !in names[i]
      {
        assert names[i] in u;
      }
    }
  }

  /** With the intended loop, whenever someone besides the owner is named,
      the rewritten title names exactly the replaced non-owner names and
      none of the owner's. */
  lemma OwnerLeavesTitle(t: Thread, inv: map<string, string>, mine: seq<string>,
                         pick: seq<string> -> seq<string>)
    requires ValidPick(pick)
    requires |Others(ReplaceAll(TitleNames(t.title), inv), mine)| > 0
    requires CommaFree(RewriteNames(TitleNames(t.title), inv, mine))
    ensures forall x :: x in Split(Resolve(t, inv, mine, pick).value.title, TitleJoiner) <==>
      x in ReplaceAll(TitleNames(t.title), inv) && x !in mine
  {
    var u := RewriteNames(TitleNames(t.title), inv, mine);
    var parts := Split(Resolve(t, inv, mine, pick).value.title, TitleJoiner);
    assert Enumerates(parts, u);
    forall x
      ensures x in parts <==> x in ReplaceAll(TitleNames(t.title), inv) && x !in mine
    {
      if x in parts {
        var k :| 0 <= k < |parts| && parts[k] == x;
        assert parts[k] in u;
      }
      if x in u {
        var k :| 0 <= k < |u| && u[k] == x;
        assert u[k] in parts;
      }
    }
  }

  /** With the intended loop, a two-person fragment between the owner and
      someone else, in either order, is titled with the other person's
      (replaced) name alone. */
  lemma OwnerLeavesPairTitle(a: string, b: string, t: Thread, inv: map<string, string>,
                             mine: seq<string>, pick: seq<string> -> seq<string>)
    requires ValidPick(pick)
    requires !Contains(a, TitleSeparator) && !Contains(b, TitleSeparator)
    requires t.title == a + TitleSeparator + b
    requires (Replace(a, inv) in mine) != (Replace(b, inv) in mine)
    ensures var other := if Replace(a, inv) in mine then Replace(b, inv) else Replace(a, inv);
      Resolve(t, inv, mine, pick).value.title == other
  {
    var other := if Replace(a, inv) in mine then Replace(b, inv) else Replace(a, inv);
    var pair := [a, b];
    assert Join(pair, TitleSeparator) == t.title;
    SplitJoin(pair);
    TitleNamesIsSplit(t.title);
    var mapped := ReplaceAll(pair, inv);
    assert mapped == [Replace(a, inv), Replace(b, inv)];
    assert mapped[1..] == [Replace(b, inv)];
    assert Others([Replace(b, inv)], mine) == (if Replace(b, inv) in mine then [] else [Replace(b, inv)]);
    assert Others(mapped, mine) == [other];
    var u := RewriteNames(pair, inv, mine);
    assert u == [other];
    EnumeratesSingleton(pick(u), other);
  }
}

=== FILE: sanitize.dfy ===
/** The optional clean-up pass over the raw archive text: every character
    whose Unicode general category is a control, format, surrogate,
    private-use or unassigned one is dropped. The category table is not
    modelled; `isControl` stands for "the category starts with C". */
module Sanitize {

  /** The text without its control characters, the others kept in order. */
  function StripControl(s: string, isControl: char -> bool): (r: string)
    ensures |r| <= |s|
    ensures forall i :: 0 <= i < |r| ==> !isControl(r[i])
    decreases |s|
  {
    if |s| == 0 then ""
    else
      var rest := StripControl(s[..|s| - 1], isControl);
      var c := s[|s| - 1];
      assert s == s[..|s| - 1] + [c];
      if isControl(c) then rest else rest + [c]
  }

  /** Exactly the control characters go: every other character keeps its
      number of occurrences. */
  lemma {:induction false} StripContents(s: string, isControl: char -> bool)
    ensures forall c :: multiset(StripControl(s, isControl))[c] == (if isControl(c) then 0 else multiset(s)[c])
    decreases |s|
  {
    if |s| > 0 {
      var init := s[..|s| - 1];
      StripContents(init, isControl);
      assert s == init + [s[|s| - 1]];
    }
  }

  /** The archive is cleaned line by line; cleaning the pieces of a text and
      concatenating the results is the same as cleaning the whole text. */
  lemma {:induction false} StripConcat(a: string, b: string, isControl: char -> bool)
    ensures StripControl(a + b, isControl) == StripControl(a, isControl) + StripControl(b, isControl)
    decreases |b|
  {
    if |b| == 0 {
      assert a + b == a;
    } else {
      var b' := b[..|b| - 1];
      var c := b[|b| - 1];
      var ab := a + b;
      assert ab[..|ab| - 1] == a + b';
      assert ab[|ab| - 1] == c;
      StripConcat(a, b', isControl);
      var tail := if isControl(c) then "" else [c];
      assert StripControl(ab, isControl) == StripControl(a + b', isControl) + tail;
      assert StripControl(b, isControl) == StripControl(b', isControl) + tail;
    }
  }

  /** Text without control characters passes through unchanged. */
  lemma {:induction false} StripClean(s: string, isControl: char -> bool)
    requires forall i :: 0 <= i < |s| ==> !isControl(s[i])
    ensures StripControl(s, isControl) == s
    decreases |s|
  {
    if |s| > 0 {
      StripClean(s[..|s| - 1], isControl);
      assert s == s[..|s| - 1] + [s[|s| - 1]];
    }
  }

  /** Cleaning twice is the same as cleaning once. */
  lemma StripIdempotent(s: string, isControl: char -> bool)
    ensures StripControl(StripControl(s, isControl), isControl) == StripControl(s, isControl)
  {
    StripClean(StripControl(s, isControl), isControl);
  }
}

=== FILE: seqs.dfy ===
/** Small facts about sequences shared by the rest of the model. */
module Seqs {

  /** Python's `list(reversed(s))`. */
  function Reverse<T>(s: seq<T>): (r: seq<T>)
    ensures |r| == |s|
    ensures forall i :: 0 <= i < |s| ==> r[i] == s[|s| - 1 - i]
  {
    if |s| == 0 then [] else Reverse(s[1..]) + [s[0]]
  }

  /** Reversing twice gives back the original order. */
  lemma ReverseReverse<T>(s: seq<T>)
    ensures Reverse(Reverse(s)) == s
  {
  }

  /** No element occurs twice. */
  predicate Distinct<T(==)>(s: seq<T>) {
    forall i, j :: 0 <= i < j < |s| ==> s[i] != s[j]
  }

  /** `r` lists every element of `l` exactly once, in some order: what
      Python's `list(set(l))` may return. */
  predicate Enumerates<T(==)>(r: seq<T>, l: seq<T>) {
    && Distinct(r)
    && (forall i :: 0 <= i < |r| ==> r[i] in l)
    && (forall i :: 0 <= i < |l| ==> l[i] in r)
  }

  /** The first two elements of a duplicate-free list differ. */
  lemma FirstTwoDiffer<T>(r: seq<T>)
    requires Distinct(r) && |r| >= 2
    ensures r[0] != r[1]
  {
  }

  /** A one-element list has only itself as an enumeration. */
  lemma EnumeratesSingleton<T>(r: seq<T>, x: T)
    requires Enumerates(r, [x])
    ensures r == [x]
  {
    assert [x][0] in r;
    assert forall i :: 0 <= i < |r| ==> r[i] == x;
    if |r| >= 2 {
      FirstTwoDiffer(r);
    }
  }

  /** The first occurrence of every element: the key order of a Python
      dict filled from `l` (`DedupFirstOrder` shows the order is that of
      first appearance). */
  function Dedup<T(==)>(l: seq<T>): (r: seq<T>)
    ensures Enumerates(r, l)
    decreases |l|
  {
    if |l| == 0 then []
    else
      var r := Dedup(l[..|l| - 1]);
      var x := l[|l| - 1];
      assert l == l[..|l| - 1] + [x];
      if x in r then r else r + [x]
  }

  /** The position of the first occurrence of `x` in `l`. */
  function FirstIndex<T(==)>(l: seq<T>, x: T): (k: nat)
    requires x in l
    ensures k < |l| && l[k] == x
    ensures forall j :: 0 <= j < k ==> l[j] != x
  {
    if l[0] == x then 0 else 1 + FirstIndex(l[1..], x)
  }

  /** An element of a prefix first occurs in the whole list where it first
      occurs in the prefix. */
  lemma FirstIndexPrefix<T>(l: seq<T>, n: nat, x: T)
    requires n <= |l| && x in l[..n]
    ensures x in l && FirstIndex(l, x) == FirstIndex(l[..n], x)
  {
    var p := l[..n];
    var k := FirstIndex(p, x);
    assert l[k] == x;
    var k' := FirstIndex(l, x);
    assert k' <= k;
    assert p[k'] == x;
  }

  /** The elements of `d` occur in `l` and first occur there in the order
      `d` lists them. */
  predicate FirstOrdered<T(==)>(d: seq<T>, l: seq<T>) {
    && (forall i :: 0 <= i < |d| ==> d[i] in l)
    && (forall i, j :: 0 <= i < j < |d| ==> FirstIndex(l, d[i]) < FirstIndex(l, d[j]))
  }

  /** `Dedup` lists the elements in order of their first occurrence. */
  lemma {:induction false} DedupFirstOrder<T>(l: seq<T>)
    ensures FirstOrdered(Dedup(l), l)
    decreases |l|
  {
    if |l| > 0 {
      DedupFirstOrder(l[..|l| - 1]);
      DedupOrderStep(l);
    } else {
      assert Dedup(l) == [];
    }
  }

  /** The step of `DedupFirstOrder`: the last element either occurred
      before or is listed last, after everything that did. */
  lemma DedupOrderStep<T>(l: seq<T>)
    requires |l| > 0 && FirstOrdered(Dedup(l[..|l| - 1]), l[..|l| - 1])
    ensures FirstOrdered(Dedup(l), l)
  {
    var n := |l| - 1;
    var r := Dedup(l[..n]);
    var x := l[n];
    FirstOrderedPrefix(r, l, n);
    if x in r {
      assert Dedup(l) == r;
    } else {
      assert Dedup(l) == r + [x];
      FirstOrderedAppend(r, l);
    }
  }

  /** Order of first occurrence in a prefix is order of first occurrence
      in the whole list. */
  lemma FirstOrderedPrefix<T>(d: seq<T>, l: seq<T>, n: nat)
    requires n <= |l| && FirstOrdered(d, l[..n])
    ensures FirstOrdered(d, l)
  {
    forall i | 0 <= i < |d|
      ensures d[i] in l && FirstIndex(l, d[i]) == FirstIndex(l[..n], d[i])
    {
      FirstIndexPrefix(l, n, d[i]);
    }
  }

  /** The last element, new to the rest of the list, comes after everything
      the rest lists. */
  lemma FirstOrderedAppend<T>(r: seq<T>, l: seq<T>)
    requires |l| > 0 && Enumerates(r, l[..|l| - 1]) && l[|l| - 1] !in r
    requires FirstOrdered(r, l)
    ensures FirstOrdered(r + [l[|l| - 1]], l)
  {
    var n := |l| - 1;
    var p := l[..n];
    var x := l[n];
    var d := r + [x];
    assert x !in p;
    assert forall k :: 0 <= k < n ==> l[k] == p[k];
    assert FirstIndex(l, x) == n;
    forall i, j | 0 <= i < j < |d|
      ensures d[i] in l && d[j] in l && FirstIndex(l, d[i]) < FirstIndex(l, d[j])
    {
      assert d[i] == r[i];
      if j < |r| {
        assert d[j] == r[j];
      } else {
        FirstIndexPrefix(l, n, r[i]);
      }
    }
  }
}

=== FILE: sorting.dfy ===
/** Python's `list.sort` and `sorted` with a key: a stable sort. The model
    sorts by insertion and proves the result sorted, a permutation and
    stable; any two stable sorts of the same list agree, so this one stands
    for Python's. */
module Sorting {

  /** `le` is a total preorder: every two elements compare and `le` chains. */
  ghost predicate TotalPreorder<T(!new)>(le: (T, T) -> bool) {
    (forall a, b :: le(a, b) || le(b, a)) &&
    (forall a, b, c :: le(a, b) && le(b, c) ==> le(a, c))
  }

  /** Adjacent elements are in order. */
  predicate SortedBy<T>(s: seq<T>, le: (T, T) -> bool) {
    forall i :: 0 < i < |s| ==> le(s[i - 1], s[i])
  }

  /** Every element is in order with every later one. */
  predicate Ordered<T>(s: seq<T>, le: (T, T) -> bool) {
    forall i, j :: 0 <= i < j < |s| ==> le(s[i], s[j])
  }

  /** Places `x` ahead of the first element it is not after. */
  function Insert<T>(x: T, s: seq<T>, le: (T, T) -> bool): (r: seq<T>)
    ensures |r| == |s| + 1
    ensures multiset(r) == multiset(s) + multiset{x}
  {
    if |s| == 0 then [x]
    else if le(x, s[0]) then [x] + s
    else
      MultisetHead(s);
      [s[0]] + Insert(x, s[1..], le)
  }

  /** The bag of a non-empty list is its first element and the bag of the rest. */
  lemma MultisetHead<T>(s: seq<T>)
    requires |s| > 0
    ensures multiset(s) == multiset{s[0]} + multiset(s[1..])
  {
    assert s == [s[0]] + s[1..];
  }

  /** The list sorted by `le`, equal elements in their original order. */
  function SortBy<T>(s: seq<T>, le: (T, T) -> bool): (r: seq<T>)
    ensures |r| == |s|
  {
    if |s| == 0 then [] else Insert(s[0], SortBy(s[1..], le), le)
  }

  /** The elements of `s` that compare equal to `x`, in their order in `s`. */
  function Ties<T>(s: seq<T>, x: T, le: (T, T) -> bool): seq<T> {
    if |s| == 0 then []
    else (if le(s[0], x) && le(x, s[0]) then [s[0]] else []) + Ties(s[1..], x, le)
  }

  lemma {:induction false} InsertSorted<T(!new)>(x: T, s: seq<T>, le: (T, T) -> bool)
    requires TotalPreorder(le)
    requires SortedBy(s, le)
    ensures SortedBy(Insert(x, s, le), le)
    ensures |s| > 0 ==> Insert(x, s, le)[0] == x || Insert(x, s, le)[0] == s[0]
  {
    if |s| > 0 && !le(x, s[0]) {
      InsertSorted(x, s[1..], le);
      var r := Insert(x, s[1..], le);
      assert le(s[0], x);
      if |s| > 1 {
        assert le(s[0], s[1]);
      }
    }
  }

  /** The result is sorted. */
  lemma {:induction false} SortBySorted<T(!new)>(s: seq<T>, le: (T, T) -> bool)
    requires TotalPreorder(le)
    ensures SortedBy(SortBy(s, le), le)
  {
    if |s| > 0 {
      SortBySorted(s[1..], le);
      InsertSorted(s[0], SortBy(s[1..], le), le);
    }
  }

  /** The result is a permutation of the input. */
  lemma {:induction false} SortByPermutes<T>(s: seq<T>, le: (T, T) -> bool)
    ensures multiset(SortBy(s, le)) == multiset(s)
  {
    if |s| > 0 {
      SortByPermutes(s[1..], le);
      MultisetHead(s);
    }
  }

  /** A sorted list is in order between any two positions. */
  lemma {:induction false} SortedOrdered<T(!new)>(s: seq<T>, le: (T, T) -> bool)
    requires TotalPreorder(le)
    requires SortedBy(s, le)
    ensures Ordered(s, le)
  {
    forall i, j | 0 <= i < j < |s|
      ensures le(s[i], s[j])
    {
      ChainUp(s, le, i, j);
    }
  }

  lemma {:induction false} ChainUp<T(!new)>(s: seq<T>, le: (T, T) -> bool, i: int, j: int)
    requires TotalPreorder(le)
    requires SortedBy(s, le)
    requires 0 <= i < j < |s|
    ensures le(s[i], s[j])
    decreases j - i
  {
    if j > i + 1 {
      ChainUp(s, le, i, j - 1);
    }
  }

  /** Dropping the first element drops its contribution to the ties. */
  lemma TiesCons<T>(y: T, s: seq<T>, z: T, le: (T, T) -> bool)
    ensures Ties([y] + s, z, le) == (if le(y, z) && le(z, y) then [y] else []) + Ties(s, z, le)
  {
    assert ([y] + s)[1..] == s;
  }

  /** Inserting `x` puts it among its equals after none of them. */
  lemma {:induction false} InsertTies<T(!new)>(x: T, s: seq<T>, z: T, le: (T, T) -> bool)
    requires TotalPreorder(le)
    ensures Ties(Insert(x, s, le), z, le) ==
      (if le(x, z) && le(z, x) then [x] else []) + Ties(s, z, le)
  {
    if |s| == 0 {
      TiesCons(x, [], z, le);
    } else if le(x, s[0]) {
      TiesCons(x, s, z, le);
    } else {
      InsertTies(x, s[1..], z, le);
      NotTiedPast(x, s[0], z, le);
      InsertTiesPast(x, s, z, le);
    }
  }

  /** An element `x` is not at or below is not tied with anything tied
      with `x`. */
  lemma NotTiedPast<T(!new)>(x: T, y: T, z: T, le: (T, T) -> bool)
    requires TotalPreorder(le)
    requires !le(x, y)
    ensures !(le(x, z) && le(z, x) && le(y, z) && le(z, y))
  {
  }

  /** The step of `InsertTies` where `x` moves past the first element: that
      element is not tied with anything `x` is tied with. */
  lemma InsertTiesPast<T>(x: T, s: seq<T>, z: T, le: (T, T) -> bool)
    requires |s| > 0 && !le(x, s[0])
    requires !(le(x, z) && le(z, x) && le(s[0], z) && le(z, s[0]))
    requires Ties(Insert(x, s[1..], le), z, le) ==
      (if le(x, z) && le(z, x) then [x] else []) + Ties(s[1..], z, le)
    ensures Ties(Insert(x, s, le), z, le) ==
      (if le(x, z) && le(z, x) then [x] else []) + Ties(s, z, le)
  {
    var t := Insert(x, s[1..], le);
    var tx: seq<T> := if le(x, z) && le(z, x) then [x] else [];
    var ty: seq<T> := if le(s[0], z) && le(z, s[0]) then [s[0]] else [];
    calc {
      Ties(Insert(x, s, le), z, le);
      { InsertPast(x, s, le); }
      Ties([s[0]] + t, z, le);
      { TiesCons(s[0], t, z, le); }
      ty + Ties(t, z, le);
      ty + (tx + Ties(s[1..], z, le));
      { SwapEmpty(tx, ty, Ties(s[1..], z, le)); }
      tx + (ty + Ties(s[1..], z, le));
      tx + Ties(s, z, le);
    }
  }

  /** Past an element it is not at or below, `x` is inserted into the rest. */
  lemma InsertPast<T>(x: T, s: seq<T>, le: (T, T) -> bool)
    requires |s| > 0 && !le(x, s[0])
    ensures Insert(x, s, le) == [s[0]] + Insert(x, s[1..], le)
  {
  }

  /** Of two lists at least one of which is empty, either may go first. */
  lemma SwapEmpty<T>(a: seq<T>, b: seq<T>, c: seq<T>)
    requires a == [] || b == []
    ensures b + (a + c) == a + (b + c)
  {
  }

  /** Stability: equal elements keep their relative order. */
  lemma {:induction false} SortByStable<T(!new)>(s: seq<T>, z: T, le: (T, T) -> bool)
    requires TotalPreorder(le)
    ensures Ties(SortBy(s, le), z, le) == Ties(s, z, le)
  {
    if |s| > 0 {
      SortByStable(s[1..], z, le);
      InsertTies(s[0], SortBy(s[1..], le), z, le);
    }
  }

  /** The ties of `z` are elements of the list equal to `z`. */
  lemma {:induction false} TiesMembers<T>(s: seq<T>, z: T, le: (T, T) -> bool)
    ensures forall y :: y in Ties(s, z, le) ==> y in s && le(y, z) && le(z, y)
  {
    if |s| > 0 {
      TiesMembers(s[1..], z, le);
    }
  }

  /** The first element of a sorted list is at or below every element. */
  lemma {:induction false} SortedHead<T(!new)>(s: seq<T>, y: T, le: (T, T) -> bool)
    requires TotalPreorder(le)
    requires SortedBy(s, le)
    requires y in s
    ensures le(s[0], y)
  {
    SortedOrdered(s, le);
    var k :| 0 <= k < |s| && s[k] == y;
    if k == 0 {
      assert le(y, y) || le(y, y);
    }
  }

  /** A non-empty list has its first element among that element's ties. */
  lemma TiesOfHead<T(!new)>(s: seq<T>, le: (T, T) -> bool)
    requires TotalPreorder(le)
    ensures |s| > 0 ==> |Ties(s, s[0], le)| > 0
  {
    if |s| > 0 {
      assert le(s[0], s[0]);
    }
  }

  /** Any two sorted lists with the same ties for every element are equal:
      a stable sort's result is determined by its input. */
  lemma {:induction false} StableSortsAgree<T(!new)>(a: seq<T>, b: seq<T>, le: (T, T) -> bool)
    requires TotalPreorder(le)
    requires SortedBy(a, le) && SortedBy(b, le)
    requires forall z :: Ties(a, z, le) == Ties(b, z, le)
    ensures a == b
    decreases |a|
  {
    TiesOfHead(b, le);
    if |a| > 0 {
      var x := a[0];
      assert a == [x] + a[1..];
      TiesCons(x, a[1..], x, le);
      assert Ties(b, x, le) == Ties(a, x, le);
      TiesMembers(b, x, le);
      assert Ties(b, x, le)[0] in Ties(b, x, le);
      assert |b| > 0;
      var y := b[0];
      assert b == [y] + b[1..];
      TiesCons(y, b[1..], y, le);
      TiesMembers(a, y, le);
      assert Ties(a, y, le) == Ties(b, y, le);
      assert y in Ties(a, y, le);
      SortedHead(a, y, le);
      assert x in Ties(b, x, le);
      SortedHead(b, x, le);
      TiesCons(y, b[1..], x, le);
      assert x == y;
      forall z
        ensures Ties(a[1..], z, le) == Ties(b[1..], z, le)
      {
        TiesCons(x, a[1..], z, le);
        TiesCons(x, b[1..], z, le);
        assert Ties(a, z, le) == Ties(b, z, le);
        var p := if le(x, z) && le(z, x) then [x] else [];
        assert p + Ties(a[1..], z, le) == p + Ties(b[1..], z, le);
        assert Ties(a[1..], z, le) == (p + Ties(a[1..], z, le))[|p|..];
        assert Ties(b[1..], z, le) == (p + Ties(b[1..], z, le))[|p|..];
      }
      StableSortsAgree(a[1..], b[1..], le);
    }
  }
}

=== FILE: text.dfy ===
/** String operations of Python that the thread titles go through:
    `str.split`, `str.join`, `in` on strings and `<` on strings. */
module Text {

  /** The separator the archive writes between participant names in a
      thread title. */
  const TitleSeparator: string := ", "

  /** The separator a rebuilt multi-person title is joined with. */
  const TitleJoiner: string := ","

  /** Python's `sep in s`. */
  predicate Contains(s: string, sep: string)
    requires |sep| > 0
    decreases |s|
  {
    |s| >= |sep| && (sep <= s || Contains(s[1..], sep))
  }

  /** Python's `sep.join(parts)`. */
  function Join(parts: seq<string>, sep: string): string
  {
    if |parts| == 0 then ""
    else if |parts| == 1 then parts[0]
    else parts[0] + sep + Join(parts[1..], sep)
  }

  /** Python's `s.split(sep)` for a non-empty separator: the text is cut at
      every occurrence of `sep` found scanning left to right. */
  function Split(s: string, sep: string): (parts: seq<string>)
    requires |sep| > 0
    ensures |parts| >= 1
    decreases |s|
  {
    if |s| == 0 then [""]
    else if sep <= s then [""] + Split(s[|sep|..], sep)
    else
      var rest := Split(s[1..], sep);
      [[s[0]] + rest[0]] + rest[1..]
  }

  /** Joining the pieces of a split with the same separator gives back the
      original text. */
  lemma {:induction false} JoinSplit(s: string, sep: string)
    requires |sep| > 0
    ensures Join(Split(s, sep), sep) == s
    decreases |s|
  {
    if |s| == 0 {
    } else if sep <= s {
      var rest := Split(s[|sep|..], sep);
      JoinSplit(s[|sep|..], sep);
      JoinEmptyFirst(rest, sep);
      PrefixRest(sep, s);
    } else {
      var rest := Split(s[1..], sep);
      JoinSplit(s[1..], sep);
      JoinExtendFirst(s[0], rest, sep);
      assert s == [s[0]] + s[1..];
    }
  }

  /** An empty first part contributes only the separator. */
  lemma JoinEmptyFirst(parts: seq<string>, sep: string)
    requires |parts| >= 1
    ensures Join([""] + parts, sep) == sep + Join(parts, sep)
  {
    assert ([""] + parts)[1..] == parts;
  }

  /** A text that starts with `sep` is `sep` followed by the rest. */
  lemma PrefixRest(sep: string, s: string)
    requires sep <= s
    ensures s == sep + s[|sep|..]
  {
  }

  /** Prepending a character to the first part prepends it to the joined text. */
  lemma JoinExtendFirst(c: char, parts: seq<string>, sep: string)
    requires |parts| >= 1
    ensures Join([[c] + parts[0]] + parts[1..], sep) == [c] + Join(parts, sep)
  {
    var q := [[c] + parts[0]] + parts[1..];
    assert q[1..] == parts[1..];
  }

  /** The separator does not start inside a separator-free piece that is
      followed by nothing or by a comma. */
  lemma NoCutInPiece(p: string, t: string)
    requires |p| > 0 && !Contains(p, TitleSeparator)
    requires t == "" || t[0] == ','
    ensures !(TitleSeparator <= p + t)
  {
    assert TitleSeparator[0] == ',' && TitleSeparator[1] == ' ';
  }

  /** Where the separator does not start, the first character joins the
      first piece. */
  lemma SplitStep(s: string, sep: string)
    requires |sep| > 0 && |s| > 0 && !(sep <= s)
    ensures Split(s, sep) == [[s[0]] + Split(s[1..], sep)[0]] + Split(s[1..], sep)[1..]
  {
  }

  /** Dropping the first character of a concatenation. */
  lemma ConcatTail(p: string, t: string)
    requires |p| > 0
    ensures (p + t)[1..] == p[1..] + t
    ensures (p + t)[0] == p[0]
  {
  }

  /** A suffix of a separator-free piece is separator-free. */
  lemma ContainsSuffix(p: string)
    requires |p| > 0
    requires !Contains(p, TitleSeparator)
    ensures !Contains(p[1..], TitleSeparator)
  {
  }

  /** A piece free of `", "` stays whole when it is followed by nothing or by
      text starting with the separator's comma. */
  lemma {:induction false} SplitPiece(p: string, t: string)
    requires !Contains(p, TitleSeparator)
    requires t == "" || t[0] == ','
    ensures Split(p + t, TitleSeparator) == [p + Split(t, TitleSeparator)[0]] + Split(t, TitleSeparator)[1..]
    decreases |p|
  {
    var x := Split(t, TitleSeparator);
    if |p| == 0 {
      assert p + t == t;
      assert p + x[0] == x[0];
      assert x == [x[0]] + x[1..];
    } else {
      ContainsSuffix(p);
      SplitPiece(p[1..], t);
      SplitPieceStep(p, t);
    }
  }

  /** The step of `SplitPiece`: the first character of the piece joins
      the first part the rest of the piece splits into. */
  lemma SplitPieceStep(p: string, t: string)
    requires |p| > 0 && !Contains(p, TitleSeparator)
    requires t == "" || t[0] == ','
    requires Split(p[1..] + t, TitleSeparator) == [p[1..] + Split(t, TitleSeparator)[0]] + Split(t, TitleSeparator)[1..]
    ensures Split(p + t, TitleSeparator) == [p + Split(t, TitleSeparator)[0]] + Split(t, TitleSeparator)[1..]
  {
    var x := Split(t, TitleSeparator);
    var s := p + t;
    var rest := Split(p[1..] + t, TitleSeparator);
    ConcatTail(p, t);
    NoCutInPiece(p, t);
    SplitStep(s, TitleSeparator);
    assert Split(s[1..], TitleSeparator) == rest;
    PartsTail(p[1..] + x[0], x);
    HeadRejoin(p, x[0]);
  }

  /** Dropping the first of some parts. */
  lemma PartsTail(first: string, x: seq<string>)
    requires |x| >= 1
    ensures ([first] + x[1..])[1..] == x[1..]
    ensures ([first] + x[1..])[0] == first
  {
  }

  /** Putting the first character back in front of the rest. */
  lemma HeadRejoin(p: string, y: string)
    requires |p| > 0
    ensures [p[0]] + (p[1..] + y) == p + y
  {
    assert [p[0]] + p[1..] == p;
  }

  /** Splitting a title that was joined from separator-free names gives the
      names back. */
  lemma {:induction false} SplitJoin(parts: seq<string>)
    requires |parts| >= 1
    requires forall i :: 0 <= i < |parts| ==> !Contains(parts[i], TitleSeparator)
    ensures Split(Join(parts, TitleSeparator), TitleSeparator) == parts
    decreases |parts|
  {
    var sep := TitleSeparator;
    if |parts| == 1 {
      SplitPiece(parts[0], "");
      assert parts[0] + "" == parts[0];
    } else {
      var rest := Join(parts[1..], sep);
      SplitJoin(parts[1..]);
      SplitAfterSeparator(rest, sep);
      var t := sep + rest;
      assert t[0] == ',';
      SplitPiece(parts[0], t);
      JoinCons(parts, sep);
      var x := Split(t, sep);
      assert x[0] == "" && x[1..] == parts[1..];
      assert parts[0] + "" == parts[0];
      assert parts == [parts[0]] + parts[1..];
    }
  }

  /** Text that starts with the separator splits into an empty piece and
      the split of the rest. */
  lemma SplitAfterSeparator(rest: string, sep: string)
    requires |sep| > 0
    ensures Split(sep + rest, sep) == [""] + Split(rest, sep)
  {
    assert (sep + rest)[|sep|..] == rest;
  }

  /** A list of two or more parts joins as its first part, the separator
      and the join of the rest. */
  lemma JoinCons(parts: seq<string>, sep: string)
    requires |parts| >= 2
    ensures Join(parts, sep) == parts[0] + (sep + Join(parts[1..], sep))
  {
  }

  /** Text without the separator splits into itself alone. */
  lemma {:induction false} SplitWithoutSeparator(s: string, sep: string)
    requires |sep| > 0 && !Contains(s, sep)
    ensures Split(s, sep) == [s]
    decreases |s|
  {
    if |s| > 0 {
      assert !(sep <= s);
      SplitWithoutSeparator(s[1..], sep);
      assert s == [s[0]] + s[1..];
    }
  }

  /** A piece without `c` stays whole when followed by nothing or by `c`. */
  lemma {:induction false} SplitCharPiece(p: string, t: string, c: char)
    requires c !in p
    requires t == "" || t[0] == c
    ensures Split(p + t, [c]) == [p + Split(t, [c])[0]] + Split(t, [c])[1..]
    decreases |p|
  {
    var x := Split(t, [c]);
    if |p| == 0 {
      assert p + t == t;
      assert p + x[0] == x[0];
      assert x == [x[0]] + x[1..];
    } else {
      var s := p + t;
      var tail := p[1..];
      ConcatTail(p, t);
      assert !([c] <= s);
      SplitCharPiece(tail, t, c);
      SplitStep(s, [c]);
      assert [s[0]] + (tail + x[0]) == p + x[0];
    }
  }

  /** Splitting at a one-character separator the text that was joined with
      it from names without that character gives the names back. */
  lemma {:induction false} SplitJoinChar(parts: seq<string>, c: char)
    requires |parts| >= 1
    requires forall i :: 0 <= i < |parts| ==> c !in parts[i]
    ensures Split(Join(parts, [c]), [c]) == parts
    decreases |parts|
  {
    if |parts| == 1 {
      SplitCharPiece(parts[0], "", c);
      assert parts[0] + "" == parts[0];
    } else {
      var rest := Join(parts[1..], [c]);
      SplitJoinChar(parts[1..], c);
      var t := [c] + rest;
      assert t[1..] == rest;
      assert Split(t, [c]) == [""] + parts[1..];
      SplitCharPiece(parts[0], t, c);
      assert parts[0] + t == Join(parts, [c]);
      assert parts[0] + "" == parts[0];
    }
  }

  /** Python's `a <= b` on strings: lexicographic order of code points. */
  predicate Below(a: string, b: string)
    decreases |a|
  {
    |a| == 0 || (|b| > 0 && (a[0] < b[0] || (a[0] == b[0] && Below(a[1..], b[1..]))))
  }

  /** Any two strings are comparable. */
  lemma {:induction false} BelowTotal(a: string, b: string)
    ensures Below(a, b) || Below(b, a)
    decreases |a|
  {
    if |a| > 0 && |b| > 0 && a[0] == b[0] {
      BelowTotal(a[1..], b[1..]);
    }
  }

  /** The order is transitive. */
  lemma {:induction false} BelowTransitive(a: string, b: string, c: string)
    requires Below(a, b) && Below(b, c)
    ensures Below(a, c)
    decreases |a|
  {
    if |a| > 0 && a[0] == b[0] && b[0] == c[0] {
      BelowTransitive(a[1..], b[1..], c[1..]);
    }
  }

  /** Strings below each other are equal. */
  lemma {:induction false} BelowAntisymmetric(a: string, b: string)
    requires Below(a, b) && Below(b, a)
    ensures a == b
    decreases |a|
  {
    if |a| > 0 {
      BelowAntisymmetric(a[1..], b[1..]);
      assert a == [a[0]] + a[1..];
      assert b == [b[0]] + b[1..];
    }
  }
}

=== FILE: threads.dfy ===
/** Threads: one `div` of class `thread` in the archive (a fragment of a
    conversation), and later one merged conversation. */
module Threads {
  import opened Wrappers
  import opened Seqs
  import opened Text
  import opened Messages

  /** The lazily computed participant list: not yet asked for, or cached. */
  datatype Cache = Pending | Cached(names: seq<string>)

  datatype Thread = Thread(title: string, messages: seq<Message>, participants: Cache)

  /** What the pipeline can raise. */
  datatype Error =
    | RanOutOfNames   // a rewritten title with no names left
    | EmptyFragment   // merging needs the first message of every fragment

  /** One thread element as the scanner yields it: its leading text and the
      nodes below it in document order. */
  datatype RawThread = RawThread(text: string, nodes: seq<Node>)

  /** Building a thread from its element: the title is the leading text and
      the messages are assembled from the nodes. */
  function FromRaw(raw: RawThread): (t: Thread)
    ensures t.title == raw.text && t.participants == Pending
    ensures t.messages == ParseMessages(raw.nodes)
    ensures |t.messages| <= Paras(raw.nodes)
    ensures forall m :: m in t.messages ==> Sourced(m, Blank, raw.nodes)
  {
    MessageCountBounded(raw.nodes);
    MessagesSourced(raw.nodes);
    Thread(raw.text, ParseMessages(raw.nodes), Pending)
  }

  /** `pick` behaves like `list(set(l))`: some duplicate-free enumeration of
      `l`, in an order the model does not fix. */
  ghost predicate ValidPick(pick: seq<string> -> seq<string>) {
    forall l :: Enumerates(pick(l), l)
  }

  /** Keeping first occurrences is one order `list(set(l))` may produce, so
      `ValidPick` can be met; nothing else relies on this. */
  lemma DedupIsValidPick()
    ensures ValidPick(Dedup)
  {
  }

  /** Every sender of the thread's messages, in message order. */
  function Senders(ms: seq<Message>): (r: seq<string>)
    ensures |r| == |ms|
    ensures forall i :: 0 <= i < |ms| ==> r[i] == ms[i].sender
  {
    seq(|ms|, i requires 0 <= i < |ms| => ms[i].sender)
  }

  /** The `participants` property: the cached list if there is one;
      otherwise the distinct senders, or, for a thread without messages, the
      title split at `", "`; the result is cached in the returned thread. */
  function Participants(t: Thread, pick: seq<string> -> seq<string>): (r: (seq<string>, Thread))
    requires ValidPick(pick)
    ensures t.participants.Cached? ==> r == (t.participants.names, t)
    ensures t.participants.Pending? ==> r.1 == t.(participants := Cached(r.0))
    ensures t.participants.Pending? && |t.messages| > 0 ==>
      Enumerates(r.0, Senders(t.messages))
    ensures t.participants.Pending? && |t.messages| == 0 ==>
      r.0 == Split(t.title, TitleSeparator) && |r.0| >= 1 && Join(r.0, TitleSeparator) == t.title
  {
    match t.participants
    case Cached(names) => (names, t)
    case Pending =>
      var senders := Senders(t.messages);
      var names := pick(senders);
      assert Enumerates(names, senders);
      assert |senders| > 0 ==> senders[0] in names;
      assert |names| > 0 ==> names[0] in senders;
      if |names| == 0 then
        var parts := Split(t.title, TitleSeparator);
        JoinSplit(t.title, TitleSeparator);
        (parts, t.(participants := Cached(parts)))
      else
        (names, t.(participants := Cached(names)))
  }

  /** Asking twice gives the same list and leaves the thread as the first
      call left it. */
  lemma ParticipantsMemoised(t: Thread, pick: seq<string> -> seq<string>)
    requires ValidPick(pick)
    ensures var (names, t') := Participants(t, pick);
      Participants(t', pick) == (names, t')
  {
  }
}

=== FILE: wrappers.dfy ===
/** Python's `None` and raised exceptions, modelled as values: `Option`
    for a value that may be `None`, `Result` for an outcome that may be an
    error. */
module Wrappers {

  /** An optional value; `None` plays the role of Python's `None`. */
  datatype Option<+T> = None | Some(value: T) {

    /** The wrapped value, or `default` when there is none. */
    function GetOr(default: T): T {
      match this
      case Some(v) => v
      case None => default
    }
  }

  /** The outcome of an operation that may raise. */
  datatype Result<+T, +E> = Success(value: T) | Failure(error: E)
}
